=== FILE: README.md ===
# Battleship board model

A Dafny model of the board logic of a console Battleship game (`battleship/battle.py`).
Two players each own a square board of cell markers. Ships are straight lines of
cells. A board accepts ship placements. It resolves shots with two exceptions,
`BoardOutException` and `UsedPointException`. It keeps a `live_ships` counter that the
game loop reads to decide who has won.

The model has two layers.

- **Rules** (`dots.dfy`, `ships.dfy`, `grids.dfy`, `rules.dfy`): the board as a value
  (`Rules.BoardState`: size, field of `Grids.Cell` markers, ship values, `live_ships`).
  `add_ship` and `shot` are functions over it. Lemmas state what the game relies on:
  placement is all or nothing, each shot outcome, a second shot at the same cell,
  which ship a hit belongs to, and the `live_ships` bookkeeping.
- **Objects** (`ships.dfy`, `boards.dfy`, `players.dfy`): the classes `Ship`, `Board`,
  `Player` and `Game`, with the source's in-place updates. The field is an
  `array2<Cell>`, ships are objects with a mutable `lives`, and `live_ships` is a
  mutable field. Each `Board` method is proved to leave the board in exactly the state
  the matching rule function gives (`Board.State()` is the ghost view of the object).
  The invariant `Board.Valid()` holds across all of them: every ship cell is on the
  board and is '■' or 'X', no cell belongs to two ships, and every '■' belongs to a ship.

Four behaviours of the board and the game loop shape what is proved.

- `live_ships` does not count ships afloat. It starts at `len([]) == 0` and is only
  ever decremented. `Rules.Accounted` states the invariant that holds instead:
  `live_ships` is minus the number of sunk ships, and each ship's `lives` is its count
  of '■' cells (a ship of negative length, which `add_ship` accepts because it has no
  cells, keeps its negative `lives` on top, `Rules.Shortfall`). So on the boards
  `main` builds, the game ends with the user's win after the user's first accepted
  shot (`Players.MainEndsAfterFirstMove`).
- The placement contour is the miss marker '.'. Cells next to a placed ship therefore
  reject shots with `UsedPointException` (`Rules.PlacementContourBlocksShots`).
- The sink contour is '-', which stays shootable: `shot` neither rejects nor changes
  such a cell, and returns False (`Rules.ShotOutcomes`).
- A hit gives no extra turn: `Players.Game.Round` always moves on to the other player.

## Model

| member | source | states |
|---|---|---|
| Dots.Equals | battleship/battle.py:16-17 | `Dot.__eq__` holds exactly when the two dots are the same coordinate pair, and it is symmetric |
| Dots.NearIsAdjacent | battleship/battle.py:58-62 | the eight `near` offsets reach exactly the cells at Chebyshev distance 1 from a dot, itself excluded |
| Dots.ReachedByStep | battleship/battle.py:65-67 | each further offset adds exactly the one cell it reaches |
| Ships.ShipDots | battleship/battle.py:28-35 | a ship has `length` cells, or none when `length` is not positive |
| Ships.ShipDotsAt | battleship/battle.py:30-33 | cell `i` of a ship is `(bow.x + i*direction, bow.y + i*(1-direction))` |
| Ships.DotsDistinct | battleship/battle.py:28-35 | no cell of a ship is listed twice, whatever the direction |
| Ships.DotsOnLine | battleship/battle.py:28-35 | the cells start at the bow and each one is the previous one moved by `(direction, 1-direction)`; direction 1 keeps `y` fixed and direction 0 keeps `x` fixed |
| Ships.Ship.constructor | battleship/battle.py:21-25 | a new ship keeps its bow, length and direction and has `lives == length` |
| Ships.Ship.Dots | battleship/battle.py:27-35 | the loop of the `dots` property builds exactly `ShipDots`: `length` cells in closed form |
| Grids.Blank | battleship/battle.py:41 | a new field is `size`×`size` and every cell is 'O' |
| Grids.Out | battleship/battle.py:90-91 | `out` holds exactly when a coordinate lies outside `[0, size)`; `Grids.OutIsOffField` ties it to the field |
| Grids.OutIsOffField | battleship/battle.py:90-91 | on a `size`×`size` field, `out` holds exactly when `(dot.x, dot.y)` is not an index pair in `[0, size)`, so no negative index wraps to the far side |
| Grids.Put | battleship/battle.py:101-111 | a single cell write of `shot` changes that cell and no other, and keeps the field's shape |
| Grids.Paint | battleship/battle.py:51-52 | after the second loop of `add_ship`, the ship's cells are '■' and every other cell is unchanged |
| Grids.Contoured | battleship/battle.py:57-76 | after `contour`, each 'O' cell adjacent to a ship cell holds the mark, and every other cell is unchanged |
| Grids.TouchesStep | battleship/battle.py:64 | one more ship cell adds exactly its neighbours to the contour |
| Grids.MarkAroundStep | battleship/battle.py:65-76 | one pass of the inner loop of `contour` marks the next neighbour exactly when it is on the board and 'O' |
| Grids.ContourStep | battleship/battle.py:64-76 | one pass of the outer loop of `contour` extends the marked contour by the next ship cell |
| Grids.ContourRecolours | battleship/battle.py:69-76 | `contour` never changes a '■' or 'X' cell and makes no new '■' |
| Grids.PutRecolours | battleship/battle.py:100-111 | the writes of `shot` ('■' to 'X', 'O' to '.') change no other cell's '■' status |
| Grids.DeckCountStrike | battleship/battle.py:101-104 | turning one '■' of a ship into 'X' takes away exactly one of its lives |
| Grids.DeckCountAll | battleship/battle.py:25 | a ship whose cells are all '■' has all `length` lives |
| Rules.NewBoard | battleship/battle.py:39-44 | a new board has an all-'O' field, no ships and `live_ships == 0`, and it satisfies both board invariants |
| Rules.Placeable | battleship/battle.py:47-49 | the test of the first loop of `add_ship`; a ship that passes it lies on the field and covers no '■', and a ship with no cells always passes |
| Rules.AddShip | battleship/battle.py:46-55 | `add_ship` raises only `BoardOutException`, and only when some cell of the ship is off the board or not 'O'. On success the size and `live_ships` are kept and the ship is appended to `ships` |
| Rules.AddShipEffect | battleship/battle.py:46-55 | `add_ship` raises `BoardOutException` exactly when a cell is off the board or not 'O'. On success the ship's cells are '■', the ship is appended, no cell away from the ship and its contour changes, and `live_ships` keeps its value |
| Rules.AddShipKeepsWellFormed | battleship/battle.py:46-55 | placement keeps every ship on the board, the ships disjoint and every '■' owned |
| Rules.PlaceableApart | battleship/battle.py:47-49 | a ship that passes the placement test shares no cell with a ship already placed |
| Rules.AddShipDecks | battleship/battle.py:46-55 | after placement the new ship's cells are '■', and no cell of an earlier ship changes whether it is '■' |
| Rules.PaintKeepsWellFormed | battleship/battle.py:51-53 | painting a placeable ship and appending it keeps the board well formed |
| Rules.Shortfall | battleship/battle.py:21-25 | `length` minus the ship's cell count: `length` itself when negative, 0 otherwise |
| Rules.AddShipKeepsAccounted | battleship/battle.py:46-55 | after placing a ship with `lives == length`, of any length, each ship's `lives` still equals its count of '■' cells (plus a negative length), and `live_ships` still equals minus the number of sunk ships |
| Rules.PlacementContourBlocksShots | battleship/battle.py:93-98 | an 'O' cell next to a newly placed ship is '.' afterwards, and a shot there raises `UsedPointException` |
| Rules.Strike | battleship/battle.py:102-108 | the ship loop keeps the size and the number of ships; each ship either stays as it was or, if it contains the dot, loses one life; `live_ships` stays or drops by one |
| Rules.StrikeSinks | battleship/battle.py:102-108 | the ship loop lowers `live_ships` exactly when some ship containing the dot goes from one life to none |
| Rules.StrikeNone | battleship/battle.py:102-103 | the ship loop changes nothing when no remaining ship contains the dot |
| Rules.StrikeOwner | battleship/battle.py:102-108 | when one ship contains the dot, the loop touches only that ship: one life less; on its last life, `live_ships` drops by one and its '-' contour is drawn |
| Rules.ShotOnDeck | battleship/battle.py:100-109 | a shot on '■' hits the single ship that owns the cell. The cell becomes 'X' and the ship loses one life. If that was its last life, `live_ships` drops by one and the contour becomes '-'. The result is True and nothing else changes |
| Rules.Shot | battleship/battle.py:93-112 | `shot` raises `BoardOutException` exactly off the board. An accepted shot is on the board and returns True exactly on '■', and keeps the size and the number of ships while `live_ships` stays or drops by one |
| Rules.ShotOutcomes | battleship/battle.py:93-112 | `BoardOutException` exactly off the board; `UsedPointException` exactly on 'X' or '.'. True exactly on '■'. An 'O' cell becomes '.' and a '-' cell stays; both give False |
| Rules.ShotKeepsWellFormed | battleship/battle.py:93-112 | an accepted shot keeps the board well formed |
| Rules.OwnerAfloat | battleship/battle.py:100-105 | on a consistent board, the owner of a '■' cell is afloat, and the hit leaves it with one life less |
| Rules.SunkCountUpdate | battleship/battle.py:104-106 | replacing one ship changes the sunk count only by that ship |
| Rules.DeckShotKeepsAccounted | battleship/battle.py:100-109 | a shot on '■' keeps every ship's `lives` equal to its '■' count and `live_ships` equal to minus the sunk count |
| Rules.DeckShotLives | battleship/battle.py:100-108 | after a shot on '■' every ship's `lives` still equals its count of '■' cells (plus a negative length) |
| Rules.ShotKeepsAccounted | battleship/battle.py:93-112 | after an accepted shot, every ship's `lives` still equals its count of '■' cells, and `live_ships` still equals minus the sunk count |
| Rules.StrikeKeepsUsed | battleship/battle.py:102-108 | the ship loop changes only 'O' cells and keeps the board's size |
| Rules.ShotAgain | battleship/battle.py:93-111 | a second shot at a dot the first shot hit or missed always raises `UsedPointException` |
| Rules.SunkStaysSunk | battleship/battle.py:102-108 | no shot changes a ship that has no lives left |
| Rules.LiveShipsNeverRaised | battleship/battle.py:104-106 | `live_ships` is never positive. A shot lowers it by one exactly when it sinks an afloat ship, and otherwise leaves it unchanged |
| Boards.Board.constructor | battleship/battle.py:39-44 | a new `Board` is `NewBoard(size)`: all-'O' `size`×`size` array, no ships, `live_ships == 0` |
| Boards.Board.Mark | battleship/battle.py:73-76 | one in-bounds write to the array changes exactly that cell of the field |
| Boards.Board.MarkAround | battleship/battle.py:65-76 | the inner loop of `contour` marks exactly the 'O' neighbours of one ship cell |
| Boards.Board.Contour | battleship/battle.py:57-76 | `contour` leaves the field equal to `Contoured` of the old field with '.' or '-', and keeps the board valid |
| Boards.Board.Fits | battleship/battle.py:47-49 | the first loop of `add_ship` accepts exactly when every cell is on the board and 'O' |
| Boards.Board.PaintDots | battleship/battle.py:51-52 | the second loop of `add_ship` leaves the field equal to `Paint` of the old field |
| Boards.Board.AddShip | battleship/battle.py:46-55 | `add_ship` either raises `BoardOutException` with board and ships unchanged, or leaves exactly `Rules.AddShip`'s board with the ship appended |
| Boards.Board.LoseLife | battleship/battle.py:103-104 | decrementing the owner's `lives` changes only that ship's value and keeps the board valid |
| Boards.Board.StrikeShip | battleship/battle.py:102-108 | one iteration of the ship loop does what `Rules.Strike` does at that ship |
| Boards.Board.StrikeShips | battleship/battle.py:102-108 | the ship loop of `shot` leaves exactly `Rules.Strike`'s board |
| Boards.Board.Shot | battleship/battle.py:93-112 | `shot` raises exactly the exception `Rules.Shot` gives, with the board unchanged. Otherwise it returns `Rules.Shot`'s result and leaves its board |
| Players.MoveResult | battleship/battle.py:124-133 | a move fails only if the first candidate is refused; a completed move keeps the target board's size and number of ships, and lowers `live_ships` by at most one |
| Players.FirstAccepted | battleship/battle.py:124-133 | a move is decided by the first accepted candidate: all earlier ones were rejected, and the move's board and result are that shot's |
| Players.MoveKeepsInvariants | battleship/battle.py:124-133 | a move keeps the target board well formed and its bookkeeping exact |
| Players.Player.constructor | battleship/battle.py:116-118 | a player keeps its own board and the enemy board |
| Players.Player.Move | battleship/battle.py:124-133 | `move` shoots candidates until one is accepted and returns that shot's result. Rejected candidates leave the enemy board unchanged |
| Players.Player.Ask | battleship/battle.py:147-164 | `User.ask` returns the target of the first line the rule accepts, and it is on the board; with no such line it returns nothing |
| Players.IsSpace | battleship/battle.py:149 | the white space `split()` separates on: ASCII control or space characters, never a digit |
| Players.Word | battleship/battle.py:149 | the first token of a line is its longest prefix without white space |
| Players.Words | battleship/battle.py:149 | `split()` yields only non-empty tokens without white space |
| Players.WordsSkipSpace | battleship/battle.py:149 | `split()` ignores leading white space |
| Players.WordsSpread | battleship/battle.py:149 | splitting tokens laid out between runs of white space (any leading and trailing run, non-empty runs between tokens) gives exactly those tokens back |
| Players.WordsDecompose | battleship/battle.py:149 | every line is exactly its `split()` tokens laid out between such runs of white space, so `split()` drops the white space and nothing else |
| Players.IsDigits | battleship/battle.py:155 | the `isdigit` test: a non-empty string of '0' to '9', hence a token that `split()` yields whole |
| Players.Value | battleship/battle.py:159 | `int` of an `n`-digit string is below `10^n`, and at least `10^(n-1)` when the first digit is not '0' |
| Players.Decimal | battleship/battle.py:159 | the inverse of `int` on digit strings, used to state which lines `ask` accepts; its numerals pass the `isdigit` test |
| Players.ValueOfDecimal | battleship/battle.py:159 | `int` of the numeral of `n` is `n` |
| Players.DecimalOfValue | battleship/battle.py:159 | a digit string without leading zeros is the numeral of its `int` |
| Players.ReadTarget | battleship/battle.py:150-164 | the whole rule of `ask`: a line is refused for the token count exactly when it does not have two tokens, for its digits exactly when it has two tokens and one is not a digit string, and as off the board exactly when both are digit strings but their `int` values are not both in `[0, size)`; otherwise the target is the `int` of the two tokens and lies on the board |
| Players.ReadTargetOfDecimals | battleship/battle.py:150-164 | every cell of the board is accepted when typed as its two coordinates in decimal, with any white space before, between and after them |
| Players.UserWinsUnlessSunk | battleship/battle.py:186-190 | the user wins a round exactly when no AI ship is sunk after the user's move |
| Players.AiWinsUnlessSunk | battleship/battle.py:192-196 | past the user's check, the AI wins exactly when no user ship is sunk after its move |
| Players.MainEndsAfterFirstMove | battleship/battle.py:203-209 | on the ship-less boards `main` builds, the first accepted user shot ends the game with the user's win |
| Players.RoundResult | battleship/battle.py:179-196 | one pass of `loop`, pinned down case by case. The user wins exactly when the user's move completes and leaves the AI board at `live_ships == 0`, and the user's board is then untouched. The round stalls exactly when the user's move does not complete, or it leaves the AI board above 0 and the AI's move does not complete. The AI wins exactly when both moves complete, the AI board is not at 0 and the user's board is. Otherwise the round continues with neither at 0. The AI board after the round is the one the user's move left (or the old one if it did not complete), and when the AI moves the user's board is the one its move left |
| Players.Game.constructor | battleship/battle.py:168-172 | a game keeps both players and takes their own boards as `user_board` and `ai_board` |
| Players.Game.Round | battleship/battle.py:179-196 | one pass of `loop` (user move, check `ai_board.live_ships == 0`, AI move, check `user_board.live_ships == 0`) gives exactly `RoundResult`'s outcome and boards |
| Players.NewGame | battleship/battle.py:203-208 | `main` builds two fresh valid 6×6 boards, the AI's hidden, wired so that each player shoots at the other's board |

## Left out

- `Board.show` and every `print` (console rendering and messages) are not modelled. `hid` is kept only as a field.
- `input()` in `User.ask` is not modelled: `Players.Player.Ask` takes the typed lines as a finite sequence.
- `Players.Player.Ask`, `Players.Player.Move`: the source retries forever; the model takes a finite sequence of lines or candidates and reports `None` when all are refused.
- `AI.ask` draws from the `random` module; its targets are the caller-supplied candidate sequence of `Players.Player.Move`.
- `Players.IsDigits`: `str.isdigit` accepts non-ASCII digits too; the model accepts ASCII '0' to '9' only.
- `Players.ReadTarget`: Python's `int()` (CPython 3.11 on, and its security backports) raises `ValueError` for a digit string longer than 4300 digits, and neither `User.ask` nor `Player.move` catches it, so such a line ends the program; the model evaluates any digit string and reports an out-of-range one as `OffBoard`.
- `Players.IsSpace`: `str.split()` also splits on non-ASCII white space; the model knows only the ASCII white space characters.
- `Game.greet`, `Game.start` and the unbounded `while True` of `Game.loop` are not modelled; `Players.Game.Round` is one pass of the loop body and `Players.Game.Round`'s `Stalled` outcome stands for a move that never gets an accepted target.
- `Players.Game.Round` requires the wiring `main` builds: each player shoots at the other's board, and the two boards share no array and no ship.
- Board size is a natural number; a negative `size`, which the source would accept, is not modelled.
- `Player.ask` is an abstract placeholder in the source and has no counterpart.

=== FILE: boards.dfy ===
/** The `Board` class of battle.py: a square field updated in place, its ships and `live_ships`. */
module Boards {
  import opened Dots
  import opened Ships
  import opened Grids
  import opened Rules

  class Board {
    const size: nat
    const hid: bool
    /** `field[x, y]` is the marker of cell `(x, y)`. */
    const field: array2<Cell>
    var ships: seq<Ship>
    var liveShips: int

    // The abstract view: the field's markers and the ships' values.
    ghost var grid: Grid
    ghost var fleet: seq<ShipState>

    ghost function State(): BoardState
      reads this
    {
      BoardState(size, grid, fleet, liveShips)
    }

    /** The array holds exactly the markers of `grid`. */
    ghost predicate Mirrored()
      reads this, field
    {
      field.Length0 == size && field.Length1 == size && Shaped(grid, size) &&
      forall i, j :: 0 <= i < size && 0 <= j < size ==> field[i, j] == grid[i][j]
    }

    /** `fleet` holds the current value of every ship, in order. */
    ghost predicate Tracked()
      reads this, ships
    {
      |fleet| == |ships| && forall k :: 0 <= k < |ships| ==> fleet[k] == ships[k].Value()
    }

    ghost predicate Valid()
      reads this, field, ships
    {
      Mirrored() && Tracked() && WellFormed(State())
    }

    /** `Board.__init__`: an all-'O' field, no ships, `live_ships = len(ships)`. */
    constructor (size: nat, hid: bool)
      ensures Valid() && fresh(field)
      ensures State() == NewBoard(size) && ships == [] && this.hid == hid
    {
      this.size := size;
      this.hid := hid;
      field := new Cell[size, size]((i, j) => Empty);
      ships := [];
      liveShips := 0;
      grid := Blank(size);
      fleet := [];
      new;
      liveShips := |ships|;
    }

    /** Writes one in-bounds cell of the field. */
    method Mark(x: int, y: int, c: Cell)
      requires Mirrored() && 0 <= x < size && 0 <= y < size
      modifies this`grid, field
      ensures Mirrored() && grid == Put(old(grid), Dot(x, y), c)
    {
      field[x, y] := c;
      grid := Put(grid, Dot(x, y), c);
    }

    /** The inner loop of `contour`: marks the 'O' cells among the eight neighbours of `d`. */
    method MarkAround(d: Dot, mark: Cell)
      requires Mirrored() && mark != Empty
      modifies this`grid, field
      ensures Mirrored()
      ensures forall a, b :: 0 <= a < size && 0 <= b < size ==>
        grid[a][b] == if old(grid)[a][b] == Empty && Adjacent(d, Dot(a, b)) then mark else old(grid)[a][b]
    {
      ghost var g0 := grid;
      var k := 0;
      while k < |Near|
        invariant 0 <= k <= |Near|
        invariant Mirrored() && MarkedAround(g0, grid, size, d, k, mark)
      {
        var (dx, dy) := Near[k];
        var curX, curY := d.x + dx, d.y + dy;
        MarkAroundStep(g0, grid, size, d, k, mark);
        if 0 <= curX < size && 0 <= curY < size && field[curX, curY] == Empty {
          Mark(curX, curY, mark);
        }
        k := k + 1;
      }
      MarkedAroundAll(g0, grid, size, d, mark);
    }

    /**
     * `Board.contour`: every in-bounds 'O' neighbour of a cell of `ship` becomes '.'
     * when `verb` holds and '-' otherwise; nothing else changes.
     */
    method Contour(ship: Ship, verb: bool)
      requires Valid()
      modifies this`grid, field
      ensures Valid()
      ensures grid == Contoured(old(grid), ShipDots(ship.bow, ship.length, ship.direction),
                                if verb then Miss else Halo)
    {
      var mark := if verb then Miss else Halo;
      var dots := ship.Dots();
      ghost var g0 := grid;
      var i := 0;
      while i < |dots|
        invariant 0 <= i <= |dots|
        invariant Mirrored() && ContouredUpTo(g0, grid, size, dots, i, mark)
      {
        ghost var g := grid;
        MarkAround(dots[i], mark);
        ContourStep(g0, g, grid, size, dots, i, mark);
        i := i + 1;
      }
      ContouredAll(g0, grid, size, dots, mark);
      ContourRecolours(g0, dots, mark, size);
      RegridKeepsWellFormed(old(State()), grid);
    }

    /** The first loop of `add_ship`: every cell of `dots` is on the board and 'O'. */
    method Fits(dots: seq<Dot>) returns (ok: bool)
      requires Mirrored()
      ensures ok <==> Placeable(State(), dots)
    {
      var i := 0;
      while i < |dots|
        invariant 0 <= i <= |dots|
        invariant forall m :: 0 <= m < i ==> !Out(size, dots[m]) && At(grid, dots[m]) == Empty
      {
        var d := dots[i];
        if !(0 <= d.x < size && 0 <= d.y < size) || field[d.x, d.y] != Empty {
          assert d in dots;
          return false;
        }
        i := i + 1;
      }
      return true;
    }

    /** The second loop of `add_ship`: every cell of `dots` becomes '■'. */
    method PaintDots(dots: seq<Dot>)
      requires Mirrored() && forall p :: p in dots ==> !Out(size, p)
      modifies this`grid, field
      ensures Mirrored() && grid == Paint(old(grid), dots)
    {
      ghost var g0 := grid;
      var i := 0;
      while i < |dots|
        invariant 0 <= i <= |dots|
        invariant Mirrored()
        invariant forall a, b :: 0 <= a < size && 0 <= b < size ==>
          grid[a][b] == if Dot(a, b) in dots[..i] then Deck else g0[a][b]
      {
        assert dots[..i + 1] == dots[..i] + [dots[i]];
        assert dots[i] in dots;
        Mark(dots[i].x, dots[i].y, Deck);
        i := i + 1;
      }
      assert dots[..i] == dots;
      Extensional(grid, Paint(g0, dots), size);
    }

    /**
     * `Board.add_ship`: all or nothing. When some cell of `ship` is off the board or
     * not 'O' the board is left as it was and `BoardOutException` is the result;
     * otherwise the cells become '■', the ship is appended and its contour is drawn.
     */
    method AddShip(ship: Ship) returns (r: Result<()>)
      requires Valid()
      modifies this, field
      ensures Valid()
      ensures Rules.AddShip(old(State()), ship.Value()).Err? ==>
        r == Err(BoardOut) && State() == old(State()) && ships == old(ships)
      ensures Rules.AddShip(old(State()), ship.Value()).Ok? ==>
        r == Ok(()) && State() == Rules.AddShip(old(State()), ship.Value()).value &&
        ships == old(ships) + [ship]
    {
      var dots := ship.Dots();
      var ok := Fits(dots);
      if !ok {
        return Err(BoardOut);
      }
      PaintKeepsWellFormed(State(), ship.Value());
      dots := ship.Dots();
      PaintDots(dots);
      ships := ships + [ship];
      fleet := fleet + [ship.Value()];
      Contour(ship, true);
      return Ok(());
    }

    /** One step of `shot`'s ship loop on a ship containing the shot cell: it loses a life. */
    method LoseLife(i: nat, dot: Dot) returns (sunk: bool)
      requires Valid() && i < |ships| && dot in fleet[i].Dots()
      modifies this, ships[i]
      ensures Valid() && ships == old(ships) && liveShips == old(liveShips)
      ensures fleet == old(fleet)[i := old(fleet)[i].(lives := old(fleet)[i].lives - 1)]
      ensures grid == old(grid)
      ensures sunk <==> fleet[i].lives == 0
    {
      forall j | 0 <= j < |ships| && j != i ensures ships[j] != ships[i] {
        assert dot !in fleet[j].Dots();
      }
      ghost var before := State();
      ships[i].lives := ships[i].lives - 1;
      fleet := fleet[i := ships[i].Value()];
      RelivesKeepsWellFormed(before, fleet);
      return ships[i].lives == 0;
    }

    /**
     * The body of `shot`'s ship loop for ship `i`: the ship loses a life when it
     * contains the shot cell, and when that sinks it the loop stops after
     * decrementing `live_ships` and drawing the ship's '-' contour.
     */
    method StrikeShip(i: nat, dot: Dot) returns (stop: bool)
      requires Valid() && i < |ships|
      modifies this, field, ships[i]
      ensures Valid() && ships == old(ships)
      ensures stop ==> State() == Strike(old(State()), dot, i)
      ensures !stop ==> Strike(State(), dot, i + 1) == Strike(old(State()), dot, i)
    {
      var dots := ships[i].Dots();
      assert dots == fleet[i].Dots();
      if dot !in dots {
        return false;
      }
      var sunk := LoseLife(i, dot);
      if !sunk {
        return false;
      }
      liveShips := liveShips - 1;
      Contour(ships[i], false);
      return true;
    }

    /** The ship loop of `shot`, after the cell has become 'X'. */
    method StrikeShips(dot: Dot)
      requires Valid()
      modifies this, field, ships
      ensures Valid() && ships == old(ships)
      ensures State() == Strike(old(State()), dot, 0)
    {
      var i := 0;
      while i < |ships|
        invariant 0 <= i <= |ships|
        invariant ships == old(ships)
        invariant Valid()
        invariant Strike(State(), dot, i) == Strike(old(State()), dot, 0)
      {
        var stop := StrikeShip(i, dot);
        if stop {
          return;
        }
        i := i + 1;
      }
    }

    /**
     * `Board.shot`. Off the board: `BoardOutException`; on 'X' or '.':
     * `UsedPointException`; on '■': the cell becomes 'X', the first ships containing
     * the dot lose a life until one sinks, and the result is True; on 'O': the cell
     * becomes '.' and the result is False; on '-': nothing changes and the result is False.
     */
    method Shot(dot: Dot) returns (r: Result<bool>)
      requires Valid()
      modifies this, field, ships
      ensures Valid() && ships == old(ships)
      ensures Rules.Shot(old(State()), dot).Err? ==>
        r == Err(Rules.Shot(old(State()), dot).error) && State() == old(State())
      ensures Rules.Shot(old(State()), dot).Ok? ==>
        r == Ok(Rules.Shot(old(State()), dot).value.1) && State() == Rules.Shot(old(State()), dot).value.0
    {
      if !(0 <= dot.x < size && 0 <= dot.y < size) {
        return Err(BoardOut);
      }
      var cell := field[dot.x, dot.y];
      if cell == Hit || cell == Miss {
        return Err(UsedPoint);
      }
      if cell == Deck {
        PutRecolours(grid, dot, Hit, size);
        RegridKeepsWellFormed(State(), Put(grid, dot, Hit));
        Mark(dot.x, dot.y, Hit);
        StrikeShips(dot);
        return Ok(true);
      } else if cell == Empty {
        PutRecolours(grid, dot, Miss, size);
        RegridKeepsWellFormed(State(), Put(grid, dot, Miss));
        Mark(dot.x, dot.y, Miss);
      }
      return Ok(false);
    }
  }
}

=== FILE: dots.dfy ===
/** Grid coordinates: the `Dot` class of battle.py and the geometry built on it. */
module Dots {

  /** A cell coordinate; `x` selects the row of the field and `y` the column. */
  datatype Dot = Dot(x: int, y: int)

  /**
   * `Dot.__eq__`: two dots are equal when both coordinates agree. Since it coincides
   * with `==` on `Dot`, the model writes `dot in ship.dots` with Dafny's `in`.
   */
  function Equals(a: Dot, b: Dot): (r: bool)
    ensures r <==> a == b
    ensures r ==> Equals(b, a)
  {
    a.x == b.x && a.y == b.y
  }

  /** The eight offsets `near` that `Board.contour` visits, in their source order. */
  const Near: seq<(int, int)> := [
    (-1, -1), (-1, 0), (-1, 1),
    (0, -1), (0, 1),
    (1, -1), (1, 0), (1, 1)
  ]

  function Shift(p: Dot, offset: (int, int)): Dot {
    Dot(p.x + offset.0, p.y + offset.1)
  }

  /** `q` touches `p`: a different cell at Chebyshev distance 1 (sides and corners). */
  predicate Adjacent(p: Dot, q: Dot) {
    p != q && -1 <= q.x - p.x <= 1 && -1 <= q.y - p.y <= 1
  }

  /** Some offset of `Near`, among the first `k`, leads from `p` to `q`. */
  predicate ReachedBy(p: Dot, q: Dot, k: int) {
    exists o :: 0 <= o < k && o < |Near| && Shift(p, Near[o]) == q
  }

  /** Taking one more offset into account adds exactly the cell that offset reaches. */
  lemma ReachedByStep(p: Dot, q: Dot, k: nat)
    requires k < |Near|
    ensures ReachedBy(p, q, k + 1) <==> ReachedBy(p, q, k) || Shift(p, Near[k]) == q
  {
    if Shift(p, Near[k]) == q {
      assert 0 <= k < k + 1 && Shift(p, Near[k]) == q;
    }
  }

  /** The eight offsets of `contour` reach exactly the cells adjacent to a dot. */
  lemma NearIsAdjacent(p: Dot, q: Dot)
    ensures ReachedBy(p, q, |Near|) <==> Adjacent(p, q)
  {
    var dx, dy := q.x - p.x, q.y - p.y;
    if Adjacent(p, q) {
      var o :=
        if dx == -1 then (if dy == -1 then 0 else if dy == 0 then 1 else 2)
        else if dx == 0 then (if dy == -1 then 3 else 4)
        else (if dy == -1 then 5 else if dy == 0 then 6 else 7);
      assert Shift(p, Near[o]) == q;
    }
    if ReachedBy(p, q, |Near|) {
      var o :| 0 <= o < |Near| && Shift(p, Near[o]) == q;
      assert Near[o] != (0, 0);
    }
  }
}

=== FILE: grids.dfy ===
/** The playing field of a board as a value: a square of cell markers. */
module Grids {
  import opened Dots

  /**
   * The five markers `Board.field` holds:
   * `Empty` is 'O', `Deck` is '■' (an unhit ship cell), `Hit` is 'X',
   * `Miss` is '.' (written both for a missed shot and for the contour drawn
   * around a ship when it is placed) and `Halo` is '-' (the contour drawn
   * around a ship when it sinks).
   */
  datatype Cell = Empty | Deck | Hit | Miss | Halo

  /** Rows are indexed by `x`, columns by `y`, as in `field[dot.x][dot.y]`. */
  type Grid = seq<seq<Cell>>

  predicate Shaped(g: Grid, n: nat) {
    |g| == n && forall i :: 0 <= i < n ==> |g[i]| == n
  }

  /** The field of a new `size`×`size` board: every cell 'O'. */
  function Blank(n: nat): (g: Grid)
    ensures Shaped(g, n)
    ensures forall i, j :: 0 <= i < n && 0 <= j < n ==> g[i][j] == Empty
  {
    seq(n, i => seq(n, j => Empty))
  }

  /** `Board.out`: the dot lies off a `size`×`size` board. */
  function Out(size: int, d: Dot): (r: bool)
    ensures !r ==> 0 <= d.x < size && 0 <= d.y < size
    ensures r ==> d.x < 0 || size <= d.x || d.y < 0 || size <= d.y
  {
    !(0 <= d.x < size && 0 <= d.y < size)
  }

  predicate InGrid(g: Grid, p: Dot) {
    0 <= p.x < |g| && 0 <= p.y < |g[p.x]|
  }

  function At(g: Grid, p: Dot): Cell
    requires InGrid(g, p)
  {
    g[p.x][p.y]
  }

  predicate IsDeck(g: Grid, p: Dot) {
    InGrid(g, p) && At(g, p) == Deck
  }

  /**
   * `out` is exactly the guard that makes `(dot.x, dot.y)` an index pair of the field
   * in `[0, size)`; without it Python's negative indices would wrap to the far side.
   */
  lemma OutIsOffField(g: Grid, n: nat, d: Dot)
    requires Shaped(g, n)
    ensures Out(n, d) <==> !InGrid(g, d)
  {
  }

  /** The field after the single assignment `field[p.x][p.y] = c`. */
  function Put(g: Grid, p: Dot, c: Cell): (r: Grid)
    requires InGrid(g, p)
    ensures |r| == |g| && forall i :: 0 <= i < |g| ==> |r[i]| == |g[i]|
    ensures forall i, j :: 0 <= i < |g| && 0 <= j < |g[i]| ==>
      r[i][j] == if i == p.x && j == p.y then c else g[i][j]
  {
    g[p.x := g[p.x][p.y := c]]
  }

  /** The field after every cell of `dots` has been set to '■'. */
  function Paint(g: Grid, dots: seq<Dot>): (r: Grid)
    ensures |r| == |g| && forall i :: 0 <= i < |g| ==> |r[i]| == |g[i]|
    ensures forall i, j :: 0 <= i < |g| && 0 <= j < |g[i]| ==>
      r[i][j] == if Dot(i, j) in dots then Deck else g[i][j]
  {
    seq(|g|, i requires 0 <= i < |g| =>
      seq(|g[i]|, j requires 0 <= j < |g[i]| =>
        if Dot(i, j) in dots then Deck else g[i][j]))
  }

  /** Some cell of `dots` is adjacent to `p`. */
  predicate Touches(dots: seq<Dot>, p: Dot) {
    exists m :: 0 <= m < |dots| && Adjacent(dots[m], p)
  }

  /** Taking one more cell of a ship into account adds exactly its neighbours. */
  lemma TouchesStep(dots: seq<Dot>, i: nat, p: Dot)
    requires i < |dots|
    ensures Touches(dots[..i + 1], p) <==> Touches(dots[..i], p) || Adjacent(dots[i], p)
  {
    if Touches(dots[..i + 1], p) {
      var m :| 0 <= m < i + 1 && Adjacent(dots[..i + 1][m], p);
      if m < i {
        assert dots[..i][m] == dots[m];
      }
    }
    if Touches(dots[..i], p) {
      var m :| 0 <= m < i && Adjacent(dots[..i][m], p);
      assert dots[..i + 1][m] == dots[m];
    }
    if Adjacent(dots[i], p) {
      assert dots[..i + 1][i] == dots[i];
    }
  }

  /**
   * The field after `contour` around `dots`: every 'O' cell adjacent to some cell
   * of `dots` becomes `mark`; every other cell keeps its marker.
   */
  function Contoured(g: Grid, dots: seq<Dot>, mark: Cell): (r: Grid)
    ensures |r| == |g| && forall i :: 0 <= i < |g| ==> |r[i]| == |g[i]|
    ensures forall i, j :: 0 <= i < |g| && 0 <= j < |g[i]| ==>
      r[i][j] == if g[i][j] == Empty && Touches(dots, Dot(i, j)) then mark else g[i][j]
  {
    seq(|g|, i requires 0 <= i < |g| =>
      seq(|g[i]|, j requires 0 <= j < |g[i]| =>
        if g[i][j] == Empty && Touches(dots, Dot(i, j)) then mark else g[i][j]))
  }

  /**
   * `g` is `g0` with the 'O' cells among the first `k` neighbours of `d` (in the
   * order of `Near`) set to `mark`.
   */
  predicate MarkedAround(g0: Grid, g: Grid, n: nat, d: Dot, k: int, mark: Cell) {
    Shaped(g0, n) && Shaped(g, n) &&
    forall a, b :: 0 <= a < n && 0 <= b < n ==>
      g[a][b] == if g0[a][b] == Empty && ReachedBy(d, Dot(a, b), k) then mark else g0[a][b]
  }

  /** One iteration of the inner loop of `contour`: visiting neighbour `k` of `d`. */
  lemma MarkAroundStep(g0: Grid, g: Grid, n: nat, d: Dot, k: nat, mark: Cell)
    requires MarkedAround(g0, g, n, d, k, mark) && k < |Near| && mark != Empty
    ensures var c := Shift(d, Near[k]);
      MarkedAround(g0, if !Out(n, c) && At(g, c) == Empty then Put(g, c, mark) else g, n, d, k + 1, mark)
  {
    forall a, b | 0 <= a < n && 0 <= b < n {
      ReachedByStep(d, Dot(a, b), k);
    }
  }

  /** All eight neighbours visited: exactly the 'O' cells adjacent to `d` are marked. */
  lemma MarkedAroundAll(g0: Grid, g: Grid, n: nat, d: Dot, mark: Cell)
    requires MarkedAround(g0, g, n, d, |Near|, mark)
    ensures forall a, b :: 0 <= a < n && 0 <= b < n ==>
      g[a][b] == if g0[a][b] == Empty && Adjacent(d, Dot(a, b)) then mark else g0[a][b]
  {
    forall a, b | 0 <= a < n && 0 <= b < n {
      NearIsAdjacent(d, Dot(a, b));
    }
  }

  /** `g` is `g0` with the 'O' cells adjacent to the first `i` cells of `dots` set to `mark`. */
  predicate ContouredUpTo(g0: Grid, g: Grid, n: nat, dots: seq<Dot>, i: int, mark: Cell)
    requires 0 <= i <= |dots|
  {
    Shaped(g0, n) && Shaped(g, n) &&
    forall a, b :: 0 <= a < n && 0 <= b < n ==>
      g[a][b] == if g0[a][b] == Empty && Touches(dots[..i], Dot(a, b)) then mark else g0[a][b]
  }

  /** One iteration of the outer loop of `contour`: the neighbours of cell `i` are marked. */
  lemma ContourStep(g0: Grid, g: Grid, h: Grid, n: nat, dots: seq<Dot>, i: nat, mark: Cell)
    requires i < |dots| && ContouredUpTo(g0, g, n, dots, i, mark) && mark != Empty && Shaped(h, n)
    requires forall a, b :: 0 <= a < n && 0 <= b < n ==>
      h[a][b] == if g[a][b] == Empty && Adjacent(dots[i], Dot(a, b)) then mark else g[a][b]
    ensures ContouredUpTo(g0, h, n, dots, i + 1, mark)
  {
    forall a, b | 0 <= a < n && 0 <= b < n {
      TouchesStep(dots, i, Dot(a, b));
    }
  }

  /** All cells visited: the field is the contoured one. */
  lemma ContouredAll(g0: Grid, g: Grid, n: nat, dots: seq<Dot>, mark: Cell)
    requires ContouredUpTo(g0, g, n, dots, |dots|, mark)
    ensures g == Contoured(g0, dots, mark)
  {
    assert dots[..|dots|] == dots;
    Extensional(g, Contoured(g0, dots, mark), n);
  }

  /** Two fields of the same shape that agree on every cell are equal. */
  lemma Extensional(g: Grid, h: Grid, n: nat)
    requires Shaped(g, n) && Shaped(h, n)
    requires forall i, j :: 0 <= i < n && 0 <= j < n ==> g[i][j] == h[i][j]
    ensures g == h
  {
    forall i | 0 <= i < n ensures g[i] == h[i] {
      assert forall j :: 0 <= j < n ==> g[i][j] == h[i][j];
    }
  }

  /**
   * `h` keeps every '■' or 'X' cell of `g` as '■' or 'X' and makes no new '■': what
   * every write of `add_ship`'s contour, of `contour` and of `shot` does to the field.
   */
  predicate Recoloured(g: Grid, h: Grid, n: nat) {
    Shaped(g, n) && Shaped(h, n) &&
    forall i, j :: 0 <= i < n && 0 <= j < n ==>
      ((g[i][j] == Deck || g[i][j] == Hit) ==> (h[i][j] == Deck || h[i][j] == Hit)) &&
      (h[i][j] == Deck ==> g[i][j] == Deck)
  }

  /** A contour never touches a cell that is not 'O', so it recolours the field. */
  lemma ContourRecolours(g: Grid, dots: seq<Dot>, mark: Cell, n: nat)
    requires Shaped(g, n) && mark != Deck
    ensures Recoloured(g, Contoured(g, dots, mark), n)
    ensures forall p :: IsDeck(g, p) <==> IsDeck(Contoured(g, dots, mark), p)
  {
    var h := Contoured(g, dots, mark);
    forall p ensures IsDeck(g, p) <==> IsDeck(h, p) {
      if InGrid(g, p) {
        assert h[p.x][p.y] == (if g[p.x][p.y] == Empty && Touches(dots, p) then mark else g[p.x][p.y]);
      }
    }
  }

  /** Hitting a '■' cell, or marking an 'O' cell with anything but '■', recolours the field. */
  lemma PutRecolours(g: Grid, p: Dot, c: Cell, n: nat)
    requires Shaped(g, n) && InGrid(g, p)
    requires (At(g, p) == Deck && c == Hit) || (At(g, p) == Empty && c != Deck)
    ensures Recoloured(g, Put(g, p, c), n)
    ensures forall q :: q != p ==> (IsDeck(g, q) <==> IsDeck(Put(g, p, c), q))
  {
  }

  /** How many cells of `dots` are still '■': the lives a ship has left. */
  function DeckCount(g: Grid, dots: seq<Dot>): (r: nat)
    ensures r <= |dots|
  {
    if dots == [] then 0
    else DeckCount(g, dots[..|dots| - 1]) + (if IsDeck(g, dots[|dots| - 1]) then 1 else 0)
  }

  /** The count depends only on which cells of `dots` are '■'. */
  lemma {:induction false} DeckCountFrame(g: Grid, h: Grid, dots: seq<Dot>)
    requires forall p :: p in dots ==> (IsDeck(g, p) <==> IsDeck(h, p))
    ensures DeckCount(g, dots) == DeckCount(h, dots)
  {
    if dots != [] {
      DeckCountFrame(g, h, dots[..|dots| - 1]);
    }
  }

  /** A ship whose every cell is '■' has all its lives. */
  lemma {:induction false} DeckCountAll(g: Grid, dots: seq<Dot>)
    requires forall p :: p in dots ==> IsDeck(g, p)
    ensures DeckCount(g, dots) == |dots|
  {
    if dots != [] {
      DeckCountAll(g, dots[..|dots| - 1]);
    }
  }

  /** Turning one listed '■' cell into something else takes exactly one life away. */
  lemma {:induction false} DeckCountStrike(g: Grid, dots: seq<Dot>, p: Dot, c: Cell)
    requires forall i, j :: 0 <= i < j < |dots| ==> dots[i] != dots[j]
    requires p in dots && IsDeck(g, p) && c != Deck
    ensures DeckCount(Put(g, p, c), dots) == DeckCount(g, dots) - 1
  {
    var h := Put(g, p, c);
    var init := dots[..|dots| - 1];
    var last := dots[|dots| - 1];
    if last == p {
      assert p !in init by {
        forall m | 0 <= m < |init| ensures init[m] != p {
          assert dots[m] != dots[|dots| - 1];
        }
      }
      DeckCountFrame(g, h, init);
    } else {
      assert p in init by {
        var m :| 0 <= m < |dots| && dots[m] == p;
        assert m < |dots| - 1;
        assert init[m] == p;
      }
      DeckCountStrike(g, init, p, c);
    }
  }
}

=== FILE: players.dfy ===
/**
 * Players and the game round of battle.py: `Player.move`, the target rule of
 * `User.ask` and the order of one round of `Game.loop`.
 */
module Players {
  import opened Dots
  import opened Grids
  import opened Rules
  import opened Boards

  datatype Option<T> = None | Some(value: T)

  // ---------------------------------------------------------------------------
  // Player.move

  /**
   * `Player.move` over a finite list of candidate targets: the outcome of the first
   * candidate that `shot` accepts. Rejected candidates leave the board as it was.
   * `None` when every candidate is rejected (the source would keep asking).
   */
  function MoveResult(b: BoardState, targets: seq<Dot>): (r: Option<(BoardState, bool)>)
    requires Shaped(b.grid, b.size)
    ensures r.None? ==> targets == [] || Shot(b, targets[0]).Err?
    ensures r.Some? ==>
      r.value.0.size == b.size && |r.value.0.fleet| == |b.fleet| &&
      (r.value.0.liveShips == b.liveShips || r.value.0.liveShips == b.liveShips - 1)
    decreases |targets|
  {
    if targets == [] then None
    else match Shot(b, targets[0])
      case Ok(v) => Some(v)
      case Err(_) => MoveResult(b, targets[1..])
  }

  /**
   * The move is decided by the first accepted candidate `n`: every earlier one was
   * rejected, and the move's board and result are that shot's.
   */
  lemma {:induction false} FirstAccepted(b: BoardState, targets: seq<Dot>) returns (n: nat)
    requires Shaped(b.grid, b.size)
    ensures n <= |targets|
    ensures forall m :: 0 <= m < n ==> Shot(b, targets[m]).Err?
    ensures n == |targets| <==> MoveResult(b, targets).None?
    ensures n < |targets| ==>
      Shot(b, targets[n]).Ok? && MoveResult(b, targets) == Some(Shot(b, targets[n]).value)
  {
    if targets == [] || Shot(b, targets[0]).Ok? {
      return 0;
    }
    var rest := FirstAccepted(b, targets[1..]);
    n := rest + 1;
    forall m | 0 < m < n ensures Shot(b, targets[m]).Err? {
      assert targets[m] == targets[1..][m - 1];
    }
    if n < |targets| {
      assert targets[n] == targets[1..][rest];
    }
  }

  /** A move keeps the board well formed and its `live_ships` accounted. */
  lemma MoveKeepsInvariants(b: BoardState, targets: seq<Dot>)
    requires WellFormed(b) && Accounted(b) && MoveResult(b, targets).Some?
    ensures WellFormed(MoveResult(b, targets).value.0)
    ensures Accounted(MoveResult(b, targets).value.0)
  {
    var n := FirstAccepted(b, targets);
    ShotKeepsWellFormed(b, targets[n]);
    ShotKeepsAccounted(b, targets[n]);
  }

  /** A player shoots at `enemyBoard`; `board` is its own board. */
  class Player {
    const board: Board
    const enemyBoard: Board

    constructor (board: Board, enemyBoard: Board)
      ensures this.board == board && this.enemyBoard == enemyBoard
    {
      this.board := board;
      this.enemyBoard := enemyBoard;
    }

    /**
     * `Player.move`: shoots the candidates in turn until one is accepted and returns
     * that shot's result.
     */
    method Move(targets: seq<Dot>) returns (repeat: Option<bool>)
      requires enemyBoard.Valid()
      modifies enemyBoard, enemyBoard.field, enemyBoard.ships
      ensures enemyBoard.Valid() && enemyBoard.ships == old(enemyBoard.ships)
      ensures MoveResult(old(enemyBoard.State()), targets).None? ==>
        repeat == None && enemyBoard.State() == old(enemyBoard.State())
      ensures MoveResult(old(enemyBoard.State()), targets).Some? ==>
        repeat == Some(MoveResult(old(enemyBoard.State()), targets).value.1) &&
        enemyBoard.State() == MoveResult(old(enemyBoard.State()), targets).value.0
    {
      var i := 0;
      while i < |targets|
        invariant 0 <= i <= |targets|
        invariant enemyBoard.Valid() && enemyBoard.ships == old(enemyBoard.ships)
        invariant enemyBoard.State() == old(enemyBoard.State())
        invariant MoveResult(old(enemyBoard.State()), targets[i..]) == MoveResult(old(enemyBoard.State()), targets)
      {
        assert targets[i..][1..] == targets[i + 1..];
        var r := enemyBoard.Shot(targets[i]);
        if r.Ok? {
          return Some(r.value);
        }
        i := i + 1;
      }
      return None;
    }

    /**
     * `User.ask` over a finite list of input lines: the target of the first line the
     * rule accepts for the enemy board.
     */
    method Ask(lines: seq<string>) returns (target: Option<Dot>)
      ensures target.None? <==> forall m :: 0 <= m < |lines| ==> !ReadTarget(lines[m], enemyBoard.size).Target?
      ensures target.Some? ==> !Out(enemyBoard.size, target.value)
      ensures target.Some? ==>
        (exists n :: 0 <= n < |lines| &&
          ReadTarget(lines[n], enemyBoard.size) == Target(target.value) &&
          forall m :: 0 <= m < n ==> !ReadTarget(lines[m], enemyBoard.size).Target?)
    {
      var i := 0;
      while i < |lines|
        invariant 0 <= i <= |lines|
        invariant forall m :: 0 <= m < i ==> !ReadTarget(lines[m], enemyBoard.size).Target?
      {
        var reading := ReadTarget(lines[i], enemyBoard.size);
        if reading.Target? {
          return Some(reading.dot);
        }
        i := i + 1;
      }
      return None;
    }
  }

  // ---------------------------------------------------------------------------
  // The target rule of User.ask

  /** The ASCII characters `str.isspace` accepts: space, '\t' to '\r' and 0x1c to 0x1f. */
  predicate IsSpace(c: char): (r: bool)
    ensures r ==> c as int <= 32 && !('0' <= c <= '9')
  {
    c == ' ' || '\t' <= c <= '\r' || 28 <= c as int <= 31
  }

  /** A token of `str.split()`: non-empty and free of white space. */
  predicate IsToken(w: string) {
    |w| > 0 && forall i :: 0 <= i < |w| ==> !IsSpace(w[i])
  }

  /** The longest prefix of `s` without white space. */
  function Word(s: string): (w: string)
    ensures |w| <= |s| && w == s[..|w|]
    ensures forall i :: 0 <= i < |w| ==> !IsSpace(w[i])
    ensures |w| < |s| ==> IsSpace(s[|w|])
  {
    if s == [] || IsSpace(s[0]) then [] else [s[0]] + Word(s[1..])
  }

  /** `str.split()` with no argument: the maximal runs of non-white-space characters. */
  function Words(s: string): (r: seq<string>)
    ensures forall k :: 0 <= k < |r| ==> IsToken(r[k])
    decreases |s|
  {
    if s == [] then []
    else if IsSpace(s[0]) then Words(s[1..])
    else
      var w := Word(s);
      [w] + Words(s[|w|..])
  }

  /** A run of white space, possibly empty. */
  predicate AllSpace(s: string) {
    forall i :: 0 <= i < |s| ==> IsSpace(s[i])
  }

  /**
   * What may surround `n` tokens: `n + 1` runs of white space, the first and the last
   * possibly empty, every one between two tokens non-empty.
   */
  predicate Separators(seps: seq<string>, n: nat) {
    |seps| == n + 1 &&
    (forall k :: 0 <= k < |seps| ==> AllSpace(seps[k])) &&
    (forall k :: 0 < k < n ==> |seps[k]| > 0)
  }

  /** The tokens `ts` laid out between the runs of white space `seps`. */
  function Spread(ts: seq<string>, seps: seq<string>): (s: string)
    requires |seps| == |ts| + 1
    ensures |s| >= |seps[0]| && s[..|seps[0]|] == seps[0]
  {
    if ts == [] then seps[0] else seps[0] + ts[0] + Spread(ts[1..], seps[1..])
  }

  lemma {:induction false} WordOfToken(t: string, rest: string)
    requires IsToken(t) && (rest == [] || IsSpace(rest[0]))
    ensures Word(t + rest) == t
  {
    if |t| > 1 {
      assert (t + rest)[1..] == t[1..] + rest;
      WordOfToken(t[1..], rest);
    }
    else {
      assert (t + rest)[1..] == rest;
    }
  }

  /** Leading white space does not change the split. */
  lemma {:induction false} WordsSkipSpace(b: string, s: string)
    requires AllSpace(b)
    ensures Words(b + s) == Words(s)
  {
    if b != [] {
      assert (b + s)[1..] == b[1..] + s;
      WordsSkipSpace(b[1..], s);
    } else {
      assert b + s == s;
    }
  }

  /** A token followed by white space or nothing is split off whole. */
  lemma WordsOfToken(t: string, rest: string)
    requires IsToken(t) && (rest == [] || IsSpace(rest[0]))
    ensures Words(t + rest) == [t] + Words(rest)
  {
    WordOfToken(t, rest);
    assert (t + rest)[|t|..] == rest;
  }

  /** A layout that starts with a non-empty run of white space, or is only white space. */
  lemma SpreadStartsBlank(ts: seq<string>, seps: seq<string>)
    requires |seps| == |ts| + 1 && AllSpace(seps[0]) && (ts == [] || |seps[0]| > 0)
    ensures var s := Spread(ts, seps); s == [] || IsSpace(s[0])
  {
    if ts != [] {
      assert Spread(ts, seps)[0] == seps[0][0];
    }
  }

  /** Splitting tokens laid out between runs of white space gives the tokens back. */
  lemma {:induction false} WordsSpread(ts: seq<string>, seps: seq<string>)
    requires forall k :: 0 <= k < |ts| ==> IsToken(ts[k])
    requires Separators(seps, |ts|)
    ensures Words(Spread(ts, seps)) == ts
  {
    if ts == [] {
      WordsSkipSpace(seps[0], []);
      assert seps[0] + [] == seps[0];
    } else {
      var rest := Spread(ts[1..], seps[1..]);
      assert Separators(seps[1..], |ts| - 1);
      SpreadStartsBlank(ts[1..], seps[1..]);
      WordsSkipSpace(seps[0], ts[0] + rest);
      assert Spread(ts, seps) == seps[0] + (ts[0] + rest);
      WordsOfToken(ts[0], rest);
      WordsSpread(ts[1..], seps[1..]);
    }
  }

  /**
   * Every line is its own tokens laid out between runs of white space: `Words`
   * drops the white space and nothing else.
   */
  lemma {:induction false} WordsDecompose(s: string) returns (seps: seq<string>)
    ensures Separators(seps, |Words(s)|) && s == Spread(Words(s), seps)
    decreases |s|
  {
    if s == [] {
      seps := [[]];
    } else if IsSpace(s[0]) {
      var seps' := WordsDecompose(s[1..]);
      seps := LeadingSpace(s, seps');
    } else {
      var w := Word(s);
      var seps' := WordsDecompose(s[|w|..]);
      seps := LeadingWord(s, seps');
    }
  }

  /** `WordsDecompose` for a line that starts with white space. */
  lemma LeadingSpace(s: string, seps': seq<string>) returns (seps: seq<string>)
    requires s != [] && IsSpace(s[0])
    requires Separators(seps', |Words(s[1..])|) && s[1..] == Spread(Words(s[1..]), seps')
    ensures Separators(seps, |Words(s)|) && s == Spread(Words(s), seps)
  {
    seps := seps'[0 := [s[0]] + seps'[0]];
    var ts := Words(s[1..]);
    assert Words(s) == ts;
    assert s == [s[0]] + s[1..];
    if ts == [] {
      assert Spread(ts, seps) == [s[0]] + seps'[0];
    } else {
      var tail := Spread(ts[1..], seps'[1..]);
      assert seps[1..] == seps'[1..];
      assert Spread(ts, seps) == ([s[0]] + seps'[0]) + ts[0] + tail;
      assert s[1..] == seps'[0] + ts[0] + tail;
    }
  }

  /** `WordsDecompose` for a line that starts with a token. */
  lemma LeadingWord(s: string, seps': seq<string>) returns (seps: seq<string>)
    requires s != [] && !IsSpace(s[0])
    requires var rest := s[|Word(s)|..];
      Separators(seps', |Words(rest)|) && rest == Spread(Words(rest), seps')
    ensures Separators(seps, |Words(s)|) && s == Spread(Words(s), seps)
  {
    var w := Word(s);
    var rest := s[|w|..];
    var ts := Words(rest);
    seps := [[]] + seps';
    assert Words(s) == [w] + ts;
    assert ([w] + ts)[1..] == ts;
    assert seps[1..] == seps';
    if ts != [] {
      assert |seps'[0]| > 0 by {
        assert rest != [] && IsSpace(rest[0]);
      }
    }
    assert s == w + rest;
  }

  /** `str.isdigit`, restricted to ASCII digits. */
  predicate IsDigits(s: string): (r: bool)
    ensures r ==> IsToken(s)
  {
    |s| > 0 && forall i :: 0 <= i < |s| ==> '0' <= s[i] <= '9'
  }

  function Pow10(n: nat): (r: nat)
    ensures r >= 1
  {
    if n == 0 then 1 else 10 * Pow10(n - 1)
  }

  /**
   * `int(s)` of a string of decimal digits: a number below `10^|s|`, and at least
   * `10^(|s|-1)` when the first digit is not '0'.
   */
  function Value(s: string): (r: nat)
    requires forall i :: 0 <= i < |s| ==> '0' <= s[i] <= '9'
    ensures r < Pow10(|s|)
    ensures |s| > 0 && s[0] != '0' ==> Pow10(|s| - 1) <= r
  {
    if s == [] then 0 else Value(s[..|s| - 1]) * 10 + (s[|s| - 1] as int - '0' as int)
  }

  /** The decimal numeral of `n`, without leading zeros. */
  function Decimal(n: nat): (s: string)
    ensures IsDigits(s)
  {
    (if n < 10 then [] else Decimal(n / 10)) + [('0' as int + n % 10) as char]
  }

  /** A numeral without leading zeros is the one `Decimal` writes for its value. */
  lemma {:induction false} DecimalOfValue(s: string)
    requires IsDigits(s) && (s[0] != '0' || |s| == 1)
    ensures Decimal(Value(s)) == s
  {
    var n := Value(s);
    var last := s[|s| - 1];
    if |s| == 1 {
      assert n == last as int - '0' as int;
      assert ('0' as int + n % 10) as char == last;
    } else {
      var p := s[..|s| - 1];
      assert p[0] == s[0];
      DecimalOfValue(p);
      assert n >= 10;
      assert n / 10 == Value(p) && n % 10 == last as int - '0' as int;
      assert s == p + [last];
    }
  }

  /** Reading back a numeral gives the number. */
  lemma {:induction false} ValueOfDecimal(n: nat)
    ensures Value(Decimal(n)) == n
  {
    var s := Decimal(n);
    var digit := n % 10;
    var last := ('0' as int + digit) as char;
    assert s[|s| - 1] == last;
    assert last as int - '0' as int == digit;
    if n >= 10 {
      assert s[..|s| - 1] == Decimal(n / 10);
      ValueOfDecimal(n / 10);
      assert Value(s) == (n / 10) * 10 + digit;
    } else {
      assert s[..|s| - 1] == [];
    }
  }

  /** Why `User.ask` takes a line, or why it asks again. */
  datatype Reading = Target(dot: Dot) | WrongCount | NotNumbers | OffBoard

  /**
   * The rule of `User.ask` for one line: exactly two tokens, both digit strings,
   * both in `[0, size)`; checked in that order.
   */
  function ReadTarget(line: string, size: int): (r: Reading)
    ensures r == WrongCount <==> |Words(line)| != 2
    ensures r == NotNumbers <==>
      |Words(line)| == 2 && (!IsDigits(Words(line)[0]) || !IsDigits(Words(line)[1]))
    ensures r.Target? ==>
      |Words(line)| == 2 && IsDigits(Words(line)[0]) && IsDigits(Words(line)[1]) &&
      r.dot == Dot(Value(Words(line)[0]), Value(Words(line)[1]))
    ensures r.Target? ==> !Out(size, r.dot)
    ensures r == OffBoard <==>
      |Words(line)| == 2 && IsDigits(Words(line)[0]) && IsDigits(Words(line)[1]) &&
      Out(size, Dot(Value(Words(line)[0]), Value(Words(line)[1])))
  {
    var coord := Words(line);
    if |coord| != 2 then WrongCount
    else if !IsDigits(coord[0]) || !IsDigits(coord[1]) then NotNumbers
    else
      var x, y := Value(coord[0]), Value(coord[1]);
      if !(0 <= x < size && 0 <= y < size) then OffBoard
      else Target(Dot(x, y))
  }

  /**
   * Every cell of the board can be entered: its two coordinates in decimal, with
   * any white space between, before and after them.
   */
  lemma ReadTargetOfDecimals(x: nat, y: nat, size: int, seps: seq<string>)
    requires x < size && y < size && Separators(seps, 2)
    ensures ReadTarget(Spread([Decimal(x), Decimal(y)], seps), size) == Target(Dot(x, y))
  {
    var ts := [Decimal(x), Decimal(y)];
    WordsSpread(ts, seps);
    ValueOfDecimal(x);
    ValueOfDecimal(y);
    var coord := Words(Spread(ts, seps));
    assert coord[0] == Decimal(x) && coord[1] == Decimal(y);
    assert IsDigits(coord[0]) && IsDigits(coord[1]);
  }

  // ---------------------------------------------------------------------------
  // One round of Game.loop

  datatype Outcome = UserWon | AiWon | Continues | Stalled

  /**
   * One pass of `Game.loop`: the user moves on the AI's board; the user has won when
   * that board's `live_ships` is 0; otherwise the AI moves on the user's board and
   * has won when that board's `live_ships` is 0. A move no candidate completes
   * stalls the round.
   */
  function RoundResult(userBoard: BoardState, aiBoard: BoardState,
                       userTargets: seq<Dot>, aiTargets: seq<Dot>): (r: (Outcome, BoardState, BoardState))
    requires Shaped(userBoard.grid, userBoard.size) && Shaped(aiBoard.grid, aiBoard.size)
    ensures r.1.size == userBoard.size && r.2.size == aiBoard.size
    ensures r.0 == UserWon ==> r.1 == userBoard && r.2.liveShips == 0
    ensures r.0 == AiWon ==> r.1.liveShips == 0 && r.2.liveShips != 0
    ensures r.0 == Continues ==> r.1.liveShips != 0 && r.2.liveShips != 0
    ensures r.0 == Stalled ==> r.1 == userBoard
    ensures r.0 == AiWon || r.0 == Continues ==>
      MoveResult(userBoard, aiTargets).Some? && r.1 == MoveResult(userBoard, aiTargets).value.0
    ensures r.0 != Stalled ==> MoveResult(aiBoard, userTargets).Some? && MoveResult(aiBoard, userTargets).value.0 == r.2
    ensures MoveResult(aiBoard, userTargets).Some? ==> r.2 == MoveResult(aiBoard, userTargets).value.0
    ensures MoveResult(aiBoard, userTargets).None? ==> r.2 == aiBoard
    ensures r.0 == UserWon <==>
      MoveResult(aiBoard, userTargets).Some? && MoveResult(aiBoard, userTargets).value.0.liveShips == 0
    ensures r.0 == Stalled <==>
      (MoveResult(aiBoard, userTargets).None? ||
       (MoveResult(aiBoard, userTargets).value.0.liveShips != 0 && MoveResult(userBoard, aiTargets).None?))
    ensures r.0 == AiWon <==>
      (MoveResult(aiBoard, userTargets).Some? && MoveResult(aiBoard, userTargets).value.0.liveShips != 0 &&
       MoveResult(userBoard, aiTargets).Some? && MoveResult(userBoard, aiTargets).value.0.liveShips == 0)
  {
    match MoveResult(aiBoard, userTargets)
    case None => (Stalled, userBoard, aiBoard)
    case Some((ai, _)) =>
      if ai.liveShips == 0 then (UserWon, userBoard, ai)
      else
        match MoveResult(userBoard, aiTargets)
        case None => (Stalled, userBoard, ai)
        case Some((user, _)) =>
          if user.liveShips == 0 then (AiWon, user, ai) else (Continues, user, ai)
  }

  /**
   * Since `live_ships` counts down from 0, the user wins a round exactly when no AI
   * ship is sunk after the user's move, and the AI never gets to move otherwise
   * unless some AI ship is sunk.
   */
  lemma UserWinsUnlessSunk(userBoard: BoardState, aiBoard: BoardState, userTargets: seq<Dot>, aiTargets: seq<Dot>)
    requires Shaped(userBoard.grid, userBoard.size)
    requires WellFormed(aiBoard) && Accounted(aiBoard) && MoveResult(aiBoard, userTargets).Some?
    ensures RoundResult(userBoard, aiBoard, userTargets, aiTargets).0 == UserWon <==>
      SunkCount(MoveResult(aiBoard, userTargets).value.0.fleet) == 0
  {
    MoveKeepsInvariants(aiBoard, userTargets);
  }

  /** Likewise the AI wins exactly when no ship of the user is sunk after its move. */
  lemma AiWinsUnlessSunk(userBoard: BoardState, aiBoard: BoardState, userTargets: seq<Dot>, aiTargets: seq<Dot>)
    requires WellFormed(userBoard) && Accounted(userBoard) && Shaped(aiBoard.grid, aiBoard.size)
    requires MoveResult(aiBoard, userTargets).Some? && MoveResult(aiBoard, userTargets).value.0.liveShips != 0
    requires MoveResult(userBoard, aiTargets).Some?
    ensures RoundResult(userBoard, aiBoard, userTargets, aiTargets).0 == AiWon <==>
      SunkCount(MoveResult(userBoard, aiTargets).value.0.fleet) == 0
  {
    MoveKeepsInvariants(userBoard, aiTargets);
  }

  /**
   * The boards `main` builds hold no ships, so the first round that the user
   * completes ends the game with the user's win.
   */
  lemma MainEndsAfterFirstMove(userTargets: seq<Dot>, aiTargets: seq<Dot>)
    requires MoveResult(NewBoard(6), userTargets).Some?
    ensures RoundResult(NewBoard(6), NewBoard(6), userTargets, aiTargets).0 == UserWon
  {
    var b := NewBoard(6);
    var n := FirstAccepted(b, userTargets);
    ShotOutcomes(b, userTargets[n]);
  }

  /** `Game`: the two players and their boards, as `main` wires them. */
  class Game {
    const user: Player
    const ai: Player
    const userBoard: Board
    const aiBoard: Board

    constructor (user: Player, ai: Player)
      ensures this.user == user && this.ai == ai
      ensures userBoard == user.board && aiBoard == ai.board
    {
      this.user := user;
      this.ai := ai;
      userBoard := user.board;
      aiBoard := ai.board;
    }

    /**
     * Each player shoots at the other's board, and the two boards share no
     * array and no ship.
     */
    ghost predicate Ready()
      reads userBoard, userBoard.field, userBoard.ships, aiBoard, aiBoard.field, aiBoard.ships
    {
      user.enemyBoard == aiBoard && ai.enemyBoard == userBoard &&
      userBoard != aiBoard && userBoard.field != aiBoard.field &&
      (forall s :: s in userBoard.ships ==> s !in aiBoard.ships) &&
      userBoard.Valid() && aiBoard.Valid()
    }

    /** One pass of the body of `Game.loop`. */
    method Round(userTargets: seq<Dot>, aiTargets: seq<Dot>) returns (outcome: Outcome)
      requires Ready()
      modifies userBoard, userBoard.field, userBoard.ships, aiBoard, aiBoard.field, aiBoard.ships
      ensures Ready()
      ensures (outcome, userBoard.State(), aiBoard.State()) ==
        RoundResult(old(userBoard.State()), old(aiBoard.State()), userTargets, aiTargets)
    {
      assert forall k :: 0 <= k < |userBoard.ships| ==> userBoard.ships[k] !in aiBoard.ships;
      var repeat := user.Move(userTargets);
      if repeat.None? {
        return Stalled;
      }
      if aiBoard.liveShips == 0 {
        return UserWon;
      }
      assert forall k :: 0 <= k < |aiBoard.ships| ==> aiBoard.ships[k] !in userBoard.ships;
      repeat := ai.Move(aiTargets);
      if repeat.None? {
        return Stalled;
      }
      if userBoard.liveShips == 0 {
        return AiWon;
      }
      return Continues;
    }
  }

  /** The wiring of `main`: two fresh 6×6 boards, the AI's hidden, and a player on each. */
  method NewGame() returns (game: Game)
    ensures game.Ready()
    ensures game.userBoard.State() == NewBoard(6) && game.aiBoard.State() == NewBoard(6)
    ensures !game.userBoard.hid && game.aiBoard.hid
  {
    var userBoard := new Board(6, false);
    var aiBoard := new Board(6, true);
    var user := new Player(userBoard, aiBoard);
    var ai := new Player(aiBoard, userBoard);
    game := new Game(user, ai);
  }
}

=== FILE: rules.dfy ===
/**
 * The rules of `Board` as functions on values: what `add_ship` and `shot` do to the
 * field, the ships and the `live_ships` counter, the invariants they keep, and the
 * lemmas that state what the game relies on.
 */
module Rules {
  import opened Dots
  import opened Ships
  import opened Grids

  /** The two exceptions of battle.py. */
  datatype Error = BoardOut | UsedPoint

  /** A call that either returns a value or raises one of the two exceptions. */
  datatype Result<T> = Ok(value: T) | Err(error: Error)

  /** Everything a `Board` holds apart from `hid`, which only `show` reads. */
  datatype BoardState = BoardState(size: nat, grid: Grid, fleet: seq<ShipState>, liveShips: int)

  /** Some ship of `fleet` occupies `p`. */
  predicate Owned(fleet: seq<ShipState>, p: Dot) {
    exists k :: 0 <= k < |fleet| && p in fleet[k].Dots()
  }

  /** Every ship cell lies on the board and is '■' or 'X'. */
  predicate ShipsOnBoard(b: BoardState) {
    forall k, p :: 0 <= k < |b.fleet| && p in b.fleet[k].Dots() ==>
      InGrid(b.grid, p) && (At(b.grid, p) == Deck || At(b.grid, p) == Hit)
  }

  /** No cell belongs to two ships. */
  predicate Disjoint(fleet: seq<ShipState>) {
    forall k1, k2, p ::
      (0 <= k1 < |fleet| && 0 <= k2 < |fleet| && p in fleet[k1].Dots() && p in fleet[k2].Dots())
      ==> k1 == k2
  }

  /** Every '■' cell belongs to a ship. */
  predicate DecksOwned(b: BoardState)
    requires Shaped(b.grid, b.size)
  {
    forall i, j :: 0 <= i < b.size && 0 <= j < b.size && b.grid[i][j] == Deck ==>
      Owned(b.fleet, Dot(i, j))
  }

  /** The structure every board built by `add_ship` and `shot` has. */
  predicate WellFormed(b: BoardState) {
    Shaped(b.grid, b.size) && ShipsOnBoard(b) && Disjoint(b.fleet) && DecksOwned(b)
  }

  /** A ship with at least one cell and no lives left. */
  predicate Sunk(s: ShipState) {
    s.length > 0 && s.lives == 0
  }

  function SunkCount(fleet: seq<ShipState>): (r: nat)
    ensures r <= |fleet|
  {
    if fleet == [] then 0
    else SunkCount(fleet[..|fleet| - 1]) + (if Sunk(fleet[|fleet| - 1]) then 1 else 0)
  }

  /**
   * What `lives = length` starts with beyond the ship's cells: a ship of negative
   * length has no cells but keeps its negative `lives`.
   */
  function Shortfall(s: ShipState): (r: int)
    ensures r <= 0 && (r < 0 <==> s.length < 0)
    ensures r + |s.Dots()| == s.length
  {
    if s.length < 0 then s.length else 0
  }

  /**
   * The bookkeeping of the code as written: each ship's `lives` is the number of its
   * cells still '■' (plus its `Shortfall`, for a negative length), and `live_ships`,
   * which starts at 0 and is only ever decremented, is minus the number of ships
   * sunk so far.
   */
  predicate Accounted(b: BoardState) {
    (forall k :: 0 <= k < |b.fleet| ==>
      b.fleet[k].lives == DeckCount(b.grid, b.fleet[k].Dots()) + Shortfall(b.fleet[k])) &&
    b.liveShips + SunkCount(b.fleet) == 0
  }

  /** `Board.__init__`: an all-'O' field, no ships, and `live_ships = len([]) = 0`. */
  function NewBoard(size: nat): (b: BoardState)
    ensures WellFormed(b) && Accounted(b)
    ensures b.size == size && b.fleet == [] && b.liveShips == 0
    ensures forall i, j :: 0 <= i < size && 0 <= j < size ==> b.grid[i][j] == Empty
  {
    BoardState(size, Blank(size), [], 0)
  }

  /** The test of `add_ship`'s first loop: every cell is on the board and 'O'. */
  predicate Placeable(b: BoardState, dots: seq<Dot>): (r: bool)
    requires Shaped(b.grid, b.size)
    ensures r ==> forall p :: p in dots ==> InGrid(b.grid, p) && !IsDeck(b.grid, p)
    ensures dots == [] ==> r
  {
    forall p :: p in dots ==> !Out(b.size, p) && At(b.grid, p) == Empty
  }

  /**
   * `Board.add_ship`: all or nothing. A ship with a cell off the board or on a cell
   * that is not 'O' raises `BoardOutException`; otherwise its cells become '■', it is
   * appended to `ships` and its placement contour is drawn with '.'. `live_ships`
   * is not touched.
   */
  function AddShip(b: BoardState, s: ShipState): (r: Result<BoardState>)
    requires Shaped(b.grid, b.size)
    ensures r.Err? ==> r.error == BoardOut
    ensures r.Err? ==> exists p :: p in s.Dots() && (Out(b.size, p) || At(b.grid, p) != Empty)
    ensures r.Ok? ==>
      r.value.size == b.size && r.value.fleet == b.fleet + [s] &&
      r.value.liveShips == b.liveShips && Shaped(r.value.grid, b.size)
  {
    if !Placeable(b, s.Dots()) then Err(BoardOut)
    else Ok(b.(grid := Contoured(Paint(b.grid, s.Dots()), s.Dots(), Miss), fleet := b.fleet + [s]))
  }

  /**
   * The ship loop of `shot`, from ship `k` on: every ship that contains `d` loses a
   * life; the first one whose lives reach 0 decrements `live_ships`, gets its
   * post-sink contour of '-' and ends the loop.
   */
  function Strike(b: BoardState, d: Dot, k: nat): (r: BoardState)
    ensures r.size == b.size && |r.fleet| == |b.fleet|
    ensures forall i :: 0 <= i < |b.fleet| ==>
      r.fleet[i] == b.fleet[i] ||
      (k <= i && d in b.fleet[i].Dots() && r.fleet[i] == b.fleet[i].(lives := b.fleet[i].lives - 1))
    ensures r.liveShips == b.liveShips || r.liveShips == b.liveShips - 1
    decreases |b.fleet| - k
  {
    if k >= |b.fleet| then b
    else if d in b.fleet[k].Dots() then
      var s := b.fleet[k].(lives := b.fleet[k].lives - 1);
      if s.lives == 0 then
        b.(fleet := b.fleet[k := s], liveShips := b.liveShips - 1,
           grid := Contoured(b.grid, s.Dots(), Halo))
      else Strike(b.(fleet := b.fleet[k := s]), d, k + 1)
    else Strike(b, d, k + 1)
  }

  /**
   * `Board.shot`: off the board raises `BoardOutException`; an 'X' or '.' cell raises
   * `UsedPointException`; a '■' cell becomes 'X', the ship loop runs and the result
   * is True; an 'O' cell becomes '.' and the result is False; a '-' cell is left as
   * it is and the result is False.
   */
  function Shot(b: BoardState, d: Dot): (r: Result<(BoardState, bool)>)
    requires Shaped(b.grid, b.size)
    ensures r.Err? ==> (r.error == BoardOut <==> Out(b.size, d))
    ensures r.Ok? ==> !Out(b.size, d) && (r.value.1 <==> At(b.grid, d) == Deck)
    ensures r.Ok? ==>
      r.value.0.size == b.size && |r.value.0.fleet| == |b.fleet| &&
      (r.value.0.liveShips == b.liveShips || r.value.0.liveShips == b.liveShips - 1)
  {
    if Out(b.size, d) then Err(BoardOut)
    else if At(b.grid, d) == Hit || At(b.grid, d) == Miss then Err(UsedPoint)
    else if At(b.grid, d) == Deck then Ok((Strike(b.(grid := Put(b.grid, d, Hit)), d, 0), true))
    else if At(b.grid, d) == Empty then Ok((b.(grid := Put(b.grid, d, Miss)), false))
    else Ok((b, false))
  }

  // ---------------------------------------------------------------------------
  // Invariant preservation, one kind of change at a time

  /** A recoloured field keeps the board well formed. */
  lemma RegridKeepsWellFormed(b: BoardState, h: Grid)
    requires WellFormed(b) && Recoloured(b.grid, h, b.size)
    ensures WellFormed(b.(grid := h))
  {
    RegridKeepsShipsOnBoard(b, h);
    RegridKeepsDecksOwned(b, h);
  }

  lemma RegridKeepsShipsOnBoard(b: BoardState, h: Grid)
    requires ShipsOnBoard(b) && Recoloured(b.grid, h, b.size)
    ensures ShipsOnBoard(b.(grid := h))
  {
    forall k, p | 0 <= k < |b.fleet| && p in b.fleet[k].Dots()
      ensures InGrid(h, p) && (At(h, p) == Deck || At(h, p) == Hit)
    {
      assert InGrid(b.grid, p);
      assert b.grid[p.x][p.y] == Deck || b.grid[p.x][p.y] == Hit;
    }
  }

  lemma RegridKeepsDecksOwned(b: BoardState, h: Grid)
    requires Shaped(b.grid, b.size) && DecksOwned(b) && Recoloured(b.grid, h, b.size)
    ensures DecksOwned(b.(grid := h))
  {
    forall i, j | 0 <= i < b.size && 0 <= j < b.size && h[i][j] == Deck
      ensures Owned(b.fleet, Dot(i, j))
    {
      assert b.grid[i][j] == Deck;
    }
  }

  /** Changing only the ships' lives keeps the board well formed. */
  lemma RelivesKeepsWellFormed(b: BoardState, fleet: seq<ShipState>)
    requires WellFormed(b) && |fleet| == |b.fleet|
    requires forall k :: 0 <= k < |fleet| ==> fleet[k].Dots() == b.fleet[k].Dots()
    ensures WellFormed(b.(fleet := fleet))
  {
    var b' := b.(fleet := fleet);
    forall i, j | 0 <= i < b.size && 0 <= j < b.size && b.grid[i][j] == Deck
      ensures Owned(fleet, Dot(i, j))
    {
      assert Owned(b.fleet, Dot(i, j));
      var k :| 0 <= k < |b.fleet| && Dot(i, j) in b.fleet[k].Dots();
      assert Dot(i, j) in fleet[k].Dots();
    }
  }

  /** Ships whose cells keep their '■'-ness keep their count of '■' cells. */
  lemma RegridKeepsCounts(b: BoardState, h: Grid, except: set<Dot>)
    requires forall k, p :: 0 <= k < |b.fleet| && p in b.fleet[k].Dots() && p !in except ==>
      (IsDeck(b.grid, p) <==> IsDeck(h, p))
    ensures forall k :: 0 <= k < |b.fleet| && (forall p :: p in except ==> p !in b.fleet[k].Dots()) ==>
      DeckCount(h, b.fleet[k].Dots()) == DeckCount(b.grid, b.fleet[k].Dots())
  {
    forall k | 0 <= k < |b.fleet| && (forall p :: p in except ==> p !in b.fleet[k].Dots())
      ensures DeckCount(h, b.fleet[k].Dots()) == DeckCount(b.grid, b.fleet[k].Dots())
    {
      DeckCountFrame(b.grid, h, b.fleet[k].Dots());
    }
  }

  // ---------------------------------------------------------------------------
  // Placement

  /** The cells of a placeable ship are free of every ship already placed. */
  lemma PlaceableApart(b: BoardState, dots: seq<Dot>)
    requires WellFormed(b) && Placeable(b, dots)
    ensures forall k, p :: 0 <= k < |b.fleet| && p in b.fleet[k].Dots() ==> p !in dots
  {
    forall k, p | 0 <= k < |b.fleet| && p in b.fleet[k].Dots() ensures p !in dots {
      assert At(b.grid, p) == Deck || At(b.grid, p) == Hit;
    }
  }

  /** Painting a placeable ship and appending it keeps the board well formed. */
  lemma PaintKeepsWellFormed(b: BoardState, s: ShipState)
    requires WellFormed(b) && Placeable(b, s.Dots())
    ensures WellFormed(b.(grid := Paint(b.grid, s.Dots()), fleet := b.fleet + [s]))
  {
    PlaceableApart(b, s.Dots());
    PaintShipsOnBoard(b, s);
    PaintDisjoint(b.fleet, s);
    PaintDecksOwned(b, s);
  }

  lemma PaintShipsOnBoard(b: BoardState, s: ShipState)
    requires WellFormed(b) && Placeable(b, s.Dots())
    ensures ShipsOnBoard(b.(grid := Paint(b.grid, s.Dots()), fleet := b.fleet + [s]))
  {
    var dots := s.Dots();
    var g := Paint(b.grid, dots);
    var fleet := b.fleet + [s];
    forall k, p | 0 <= k < |b.fleet| && p in b.fleet[k].Dots()
      ensures InGrid(g, p) && (At(g, p) == Deck || At(g, p) == Hit)
    {
      assert InGrid(b.grid, p);
      assert g[p.x][p.y] == Deck || g[p.x][p.y] == b.grid[p.x][p.y];
    }
    forall p | p in dots ensures InGrid(g, p) && At(g, p) == Deck {
      assert !Out(b.size, p);
    }
    assert forall k :: 0 <= k < |fleet| ==> fleet[k] == if k < |b.fleet| then b.fleet[k] else s;
  }

  lemma PaintDisjoint(fleet: seq<ShipState>, s: ShipState)
    requires Disjoint(fleet)
    requires forall k, p :: 0 <= k < |fleet| && p in fleet[k].Dots() ==> p !in s.Dots()
    ensures Disjoint(fleet + [s])
  {
    var f := fleet + [s];
    forall k1, k2, p | 0 <= k1 < |f| && 0 <= k2 < |f| && p in f[k1].Dots() && p in f[k2].Dots()
      ensures k1 == k2
    {
      if k1 < |fleet| && k2 < |fleet| {
        assert p in fleet[k1].Dots() && p in fleet[k2].Dots();
      }
    }
  }

  lemma PaintDecksOwned(b: BoardState, s: ShipState)
    requires WellFormed(b)
    ensures DecksOwned(b.(grid := Paint(b.grid, s.Dots()), fleet := b.fleet + [s]))
  {
    var dots := s.Dots();
    var g := Paint(b.grid, dots);
    var fleet := b.fleet + [s];
    forall i, j | 0 <= i < b.size && 0 <= j < b.size && g[i][j] == Deck
      ensures Owned(fleet, Dot(i, j))
    {
      if Dot(i, j) in dots {
        assert Dot(i, j) in fleet[|b.fleet|].Dots();
      } else {
        assert b.grid[i][j] == Deck;
        assert Owned(b.fleet, Dot(i, j));
        var k :| 0 <= k < |b.fleet| && Dot(i, j) in b.fleet[k].Dots();
        assert Dot(i, j) in fleet[k].Dots();
      }
    }
  }

  /** A successful `add_ship` keeps the board well formed. */
  lemma AddShipKeepsWellFormed(b: BoardState, s: ShipState)
    requires WellFormed(b) && AddShip(b, s).Ok?
    ensures WellFormed(AddShip(b, s).value)
  {
    PaintKeepsWellFormed(b, s);
    var b1 := b.(grid := Paint(b.grid, s.Dots()), fleet := b.fleet + [s]);
    ContourRecolours(b1.grid, s.Dots(), Miss, b.size);
    RegridKeepsWellFormed(b1, Contoured(b1.grid, s.Dots(), Miss));
  }

  /**
   * `add_ship` is all or nothing: it raises `BoardOutException` exactly when some cell
   * of the ship is off the board or not 'O'. On success the ship's cells are '■',
   * every 'O' cell next to it is '.', every other cell is unchanged, the ship is the
   * last of `ships`, and `live_ships` keeps its value.
   */
  lemma AddShipEffect(b: BoardState, s: ShipState)
    requires Shaped(b.grid, b.size)
    ensures AddShip(b, s).Err? <==> exists p :: p in s.Dots() && (Out(b.size, p) || At(b.grid, p) != Empty)
    ensures AddShip(b, s).Err? ==> AddShip(b, s).error == BoardOut
    ensures AddShip(b, s).Ok? ==>
      var b' := AddShip(b, s).value;
      b'.size == b.size && b'.fleet == b.fleet + [s] && b'.liveShips == b.liveShips &&
      Shaped(b'.grid, b.size) &&
      (forall p :: p in s.Dots() ==> IsDeck(b'.grid, p)) &&
      (forall i, j :: 0 <= i < b.size && 0 <= j < b.size && Dot(i, j) !in s.Dots() ==>
        b'.grid[i][j] == (if b.grid[i][j] == Empty && Touches(s.Dots(), Dot(i, j)) then Miss else b.grid[i][j]))
  {
    if AddShip(b, s).Ok? {
      var g1 := Paint(b.grid, s.Dots());
      var h := AddShip(b, s).value.grid;
      forall p | p in s.Dots() ensures IsDeck(h, p) {
        assert !Out(b.size, p);
        assert g1[p.x][p.y] == Deck;
      }
    }
  }

  /**
   * Placing a new ship (one with `lives == length`, as `Ship.__init__` makes it, of
   * any length) keeps the bookkeeping.
   */
  lemma AddShipKeepsAccounted(b: BoardState, s: ShipState)
    requires WellFormed(b) && Accounted(b) && AddShip(b, s).Ok?
    requires s.lives == s.length
    ensures Accounted(AddShip(b, s).value)
  {
    var b' := AddShip(b, s).value;
    AddShipDecks(b, s);
    RegridKeepsCounts(b, b'.grid, {});
    DeckCountAll(b'.grid, s.Dots());
    assert b'.fleet[..|b'.fleet| - 1] == b.fleet;
    assert forall k :: 0 <= k < |b'.fleet| ==> b'.fleet[k] == if k < |b.fleet| then b.fleet[k] else s;
  }

  /** Placement turns the ship's cells into '■' and no placed ship's cell changes its '■'-ness. */
  lemma AddShipDecks(b: BoardState, s: ShipState)
    requires WellFormed(b) && AddShip(b, s).Ok?
    ensures forall k, p :: 0 <= k < |b.fleet| && p in b.fleet[k].Dots() ==>
      (IsDeck(b.grid, p) <==> IsDeck(AddShip(b, s).value.grid, p))
    ensures forall p :: p in s.Dots() ==> IsDeck(AddShip(b, s).value.grid, p)
  {
    var dots := s.Dots();
    var g1 := Paint(b.grid, dots);
    var h := AddShip(b, s).value.grid;
    ContourRecolours(g1, dots, Miss, b.size);
    PlaceableApart(b, dots);
    forall k, p | 0 <= k < |b.fleet| && p in b.fleet[k].Dots()
      ensures IsDeck(b.grid, p) <==> IsDeck(h, p)
    {
      assert InGrid(b.grid, p);
      assert g1[p.x][p.y] == b.grid[p.x][p.y];
    }
    forall p | p in dots ensures IsDeck(h, p) {
      assert !Out(b.size, p);
      assert g1[p.x][p.y] == Deck;
    }
  }

  /**
   * The placement contour blocks shots: an 'O' cell next to a newly placed ship is
   * now '.', and `shot` rejects it with `UsedPointException`.
   */
  lemma PlacementContourBlocksShots(b: BoardState, s: ShipState, p: Dot)
    requires Shaped(b.grid, b.size) && AddShip(b, s).Ok?
    requires !Out(b.size, p) && At(b.grid, p) == Empty && p !in s.Dots() && Touches(s.Dots(), p)
    ensures Shaped(AddShip(b, s).value.grid, b.size)
    ensures Shot(AddShip(b, s).value, p) == Err(UsedPoint)
  {
    var painted := Paint(b.grid, s.Dots());
    assert painted[p.x][p.y] == Empty;
    assert Contoured(painted, s.Dots(), Miss)[p.x][p.y] == Miss;
  }

  // ---------------------------------------------------------------------------
  // Shots

  /** The ship loop leaves a board alone when no remaining ship contains `d`. */
  lemma {:induction false} StrikeNone(b: BoardState, d: Dot, k: nat)
    requires forall j :: k <= j < |b.fleet| ==> d !in b.fleet[j].Dots()
    ensures Strike(b, d, k) == b
    decreases |b.fleet| - k
  {
    if k < |b.fleet| {
      StrikeNone(b, d, k + 1);
    }
  }

  /**
   * The ship loop lowers `live_ships` exactly when it brings some ship from `k` on
   * that contains `d` from one life to none.
   */
  lemma {:induction false} StrikeSinks(b: BoardState, d: Dot, k: nat)
    ensures var r := Strike(b, d, k);
      r.liveShips == b.liveShips - 1 <==>
        exists i :: k <= i < |b.fleet| && d in b.fleet[i].Dots() && b.fleet[i].lives == 1 && r.fleet[i].lives == 0
    decreases |b.fleet| - k, 1
  {
    if k < |b.fleet| {
      var r := Strike(b, d, k);
      if d in b.fleet[k].Dots() {
        var s := b.fleet[k].(lives := b.fleet[k].lives - 1);
        if s.lives == 0 {
          assert r.fleet[k].lives == 0;
        } else {
          StrikeSinksPast(b, d, k);
        }
      } else {
        StrikeSinks(b, d, k + 1);
      }
    }
  }

  /** `StrikeSinks` when ship `k` contains `d` and keeps a life after the hit. */
  lemma {:induction false} StrikeSinksPast(b: BoardState, d: Dot, k: nat)
    requires k < |b.fleet| && d in b.fleet[k].Dots() && b.fleet[k].lives != 1
    ensures var r := Strike(b, d, k);
      r.liveShips == b.liveShips - 1 <==>
        exists i :: k <= i < |b.fleet| && d in b.fleet[i].Dots() && b.fleet[i].lives == 1 && r.fleet[i].lives == 0
    decreases |b.fleet| - k, 0
  {
    var r := Strike(b, d, k);
    var s := b.fleet[k].(lives := b.fleet[k].lives - 1);
    var b' := b.(fleet := b.fleet[k := s]);
    assert r == Strike(b', d, k + 1);
    StrikeSinks(b', d, k + 1);
    if r.liveShips == b.liveShips - 1 {
      var i :| k + 1 <= i < |b.fleet| && d in b'.fleet[i].Dots() && b'.fleet[i].lives == 1 && r.fleet[i].lives == 0;
      assert b.fleet[i] == b'.fleet[i];
    }
    if exists i :: k <= i < |b.fleet| && d in b.fleet[i].Dots() && b.fleet[i].lives == 1 && r.fleet[i].lives == 0 {
      var i :| k <= i < |b.fleet| && d in b.fleet[i].Dots() && b.fleet[i].lives == 1 && r.fleet[i].lives == 0;
      assert r.fleet[k] == s;
      assert i != k;
      assert b.fleet[i] == b'.fleet[i];
    }
  }

  /**
   * When only ship `o` contains `d`, the ship loop touches only that ship: it loses
   * one life; if that was its last, `live_ships` drops by one and its '-' contour is
   * drawn; nothing else changes.
   */
  lemma {:induction false} StrikeOwner(b: BoardState, d: Dot, o: nat, k: nat)
    requires o < |b.fleet| && d in b.fleet[o].Dots() && k <= o
    requires forall j :: 0 <= j < |b.fleet| && j != o ==> d !in b.fleet[j].Dots()
    ensures var s := b.fleet[o].(lives := b.fleet[o].lives - 1);
      Strike(b, d, k) ==
        if s.lives == 0 then
          b.(fleet := b.fleet[o := s], liveShips := b.liveShips - 1,
             grid := Contoured(b.grid, s.Dots(), Halo))
        else b.(fleet := b.fleet[o := s])
    decreases o - k
  {
    if k < o {
      StrikeOwner(b, d, o, k + 1);
    } else {
      var s := b.fleet[o].(lives := b.fleet[o].lives - 1);
      if s.lives != 0 {
        StrikeNone(b.(fleet := b.fleet[o := s]), d, o + 1);
      }
    }
  }

  /**
   * A shot at a '■' cell: the cell becomes 'X', the ship `o` that owns it (the only
   * one containing the dot) loses one life, and if it has none left `live_ships`
   * drops by exactly one and the 'O' cells around that ship become '-'. The result
   * is True and no other ship changes.
   */
  lemma ShotOnDeck(b: BoardState, d: Dot) returns (o: nat)
    requires WellFormed(b) && !Out(b.size, d) && At(b.grid, d) == Deck
    ensures o < |b.fleet| && d in b.fleet[o].Dots()
    ensures forall j :: 0 <= j < |b.fleet| && d in b.fleet[j].Dots() ==> j == o
    ensures var s := b.fleet[o].(lives := b.fleet[o].lives - 1);
      var hit := Put(b.grid, d, Hit);
      Shot(b, d) == Ok((
        if s.lives == 0 then
          BoardState(b.size, Contoured(hit, s.Dots(), Halo), b.fleet[o := s], b.liveShips - 1)
        else BoardState(b.size, hit, b.fleet[o := s], b.liveShips),
        true))
  {
    assert b.grid[d.x][d.y] == Deck;
    assert Owned(b.fleet, Dot(d.x, d.y));
    o :| 0 <= o < |b.fleet| && d in b.fleet[o].Dots();
    StrikeOwner(b.(grid := Put(b.grid, d, Hit)), d, o, 0);
  }

  /** Every successful shot keeps the board well formed. */
  lemma ShotKeepsWellFormed(b: BoardState, d: Dot)
    requires WellFormed(b) && Shot(b, d).Ok?
    ensures WellFormed(Shot(b, d).value.0)
  {
    if At(b.grid, d) == Deck {
      var o := ShotOnDeck(b, d);
      var s := b.fleet[o].(lives := b.fleet[o].lives - 1);
      var hit := Put(b.grid, d, Hit);
      PutRecolours(b.grid, d, Hit, b.size);
      RegridKeepsWellFormed(b, hit);
      var b1 := b.(grid := hit);
      RelivesKeepsWellFormed(b1, b.fleet[o := s]);
      var b2 := b1.(fleet := b.fleet[o := s]);
      if s.lives == 0 {
        ContourRecolours(hit, s.Dots(), Halo, b.size);
        RegridKeepsWellFormed(b2, Contoured(hit, s.Dots(), Halo));
      }
    } else if At(b.grid, d) == Empty {
      PutRecolours(b.grid, d, Miss, b.size);
      RegridKeepsWellFormed(b, Put(b.grid, d, Miss));
    }
  }

  /** Replacing one ship changes the sunk count by the difference it makes alone. */
  lemma {:induction false} SunkCountUpdate(fleet: seq<ShipState>, o: nat, s: ShipState)
    requires o < |fleet|
    ensures SunkCount(fleet[o := s]) ==
      SunkCount(fleet) - (if Sunk(fleet[o]) then 1 else 0) + (if Sunk(s) then 1 else 0)
  {
    var n := |fleet| - 1;
    if o < n {
      assert fleet[o := s][..n] == fleet[..n][o := s];
      SunkCountUpdate(fleet[..n], o, s);
    } else {
      assert fleet[o := s][..n] == fleet[..n];
    }
  }

  /** On a consistent board, a ship that owns an on-board '■' cell has lives left. */
  lemma OwnerAfloat(b: BoardState, d: Dot, o: nat)
    requires WellFormed(b) && Accounted(b) && !Out(b.size, d) && At(b.grid, d) == Deck
    requires o < |b.fleet| && d in b.fleet[o].Dots()
    ensures b.fleet[o].lives >= 1 && b.fleet[o].length >= 1 && !Sunk(b.fleet[o])
    ensures DeckCount(Put(b.grid, d, Hit), b.fleet[o].Dots()) == b.fleet[o].lives - 1
  {
    var s := b.fleet[o];
    DotsDistinct(s.bow, s.length, s.direction);
    DeckCountStrike(b.grid, s.Dots(), d, Hit);
  }

  /**
   * Every successful shot keeps the bookkeeping: the hit ship's lives still count its
   * '■' cells, and a ship that sinks lowers `live_ships` by one.
   */
  lemma ShotKeepsAccounted(b: BoardState, d: Dot)
    requires WellFormed(b) && Accounted(b) && Shot(b, d).Ok?
    ensures Accounted(Shot(b, d).value.0)
  {
    if At(b.grid, d) == Deck {
      DeckShotKeepsAccounted(b, d);
    } else if At(b.grid, d) == Empty {
      var b' := Shot(b, d).value.0;
      PutRecolours(b.grid, d, Miss, b.size);
      forall k | 0 <= k < |b'.fleet|
        ensures b'.fleet[k].lives == DeckCount(b'.grid, b'.fleet[k].Dots()) + Shortfall(b'.fleet[k])
      {
        assert d !in b.fleet[k].Dots();
        DeckCountFrame(b.grid, b'.grid, b.fleet[k].Dots());
      }
    }
  }

  lemma DeckShotKeepsAccounted(b: BoardState, d: Dot)
    requires WellFormed(b) && Accounted(b) && !Out(b.size, d) && At(b.grid, d) == Deck
    ensures Shot(b, d).Ok? && Accounted(Shot(b, d).value.0)
  {
    var o := ShotOnDeck(b, d);
    OwnerAfloat(b, d, o);
    DeckShotLives(b, d, o);
    SunkCountUpdate(b.fleet, o, b.fleet[o].(lives := b.fleet[o].lives - 1));
  }

  /** After a shot on '■' every ship's `lives` still counts its '■' cells. */
  lemma DeckShotLives(b: BoardState, d: Dot, o: nat)
    requires WellFormed(b) && Accounted(b) && !Out(b.size, d) && At(b.grid, d) == Deck
    requires o < |b.fleet| && d in b.fleet[o].Dots()
    requires forall j :: 0 <= j < |b.fleet| && d in b.fleet[j].Dots() ==> j == o
    requires DeckCount(Put(b.grid, d, Hit), b.fleet[o].Dots()) == b.fleet[o].lives - 1
    requires var s := b.fleet[o].(lives := b.fleet[o].lives - 1);
      var hit := Put(b.grid, d, Hit);
      Shot(b, d) == Ok((
        if s.lives == 0 then
          BoardState(b.size, Contoured(hit, s.Dots(), Halo), b.fleet[o := s], b.liveShips - 1)
        else BoardState(b.size, hit, b.fleet[o := s], b.liveShips),
        true))
    ensures var b' := Shot(b, d).value.0;
      forall k :: 0 <= k < |b'.fleet| ==>
        b'.fleet[k].lives == DeckCount(b'.grid, b'.fleet[k].Dots()) + Shortfall(b'.fleet[k])
  {
    var b' := Shot(b, d).value.0;
    var s := b.fleet[o].(lives := b.fleet[o].lives - 1);
    var hit := Put(b.grid, d, Hit);
    PutRecolours(b.grid, d, Hit, b.size);
    RegridKeepsCounts(b, hit, {d});
    if s.lives == 0 {
      ContourRecolours(hit, s.Dots(), Halo, b.size);
    }
    assert forall p :: IsDeck(hit, p) <==> IsDeck(b'.grid, p);
    forall k | 0 <= k < |b'.fleet|
      ensures b'.fleet[k].lives == DeckCount(b'.grid, b'.fleet[k].Dots()) + Shortfall(b'.fleet[k])
    {
      DeckCountFrame(hit, b'.grid, b.fleet[k].Dots());
    }
  }

  /**
   * A rejected shot raises `BoardOutException` exactly for a dot off the board and
   * `UsedPointException` exactly for an 'X' or '.' cell (the rejection carries no new
   * state, so the board is unchanged). An 'O' cell becomes '.', a '-' cell is left
   * as it is; both give False and leave the ships and `live_ships` alone.
   */
  lemma ShotOutcomes(b: BoardState, d: Dot)
    requires Shaped(b.grid, b.size)
    ensures Shot(b, d) == Err(BoardOut) <==> Out(b.size, d)
    ensures Shot(b, d) == Err(UsedPoint) <==>
      !Out(b.size, d) && (At(b.grid, d) == Hit || At(b.grid, d) == Miss)
    ensures Shot(b, d).Ok? && Shot(b, d).value.1 <==> !Out(b.size, d) && At(b.grid, d) == Deck
    ensures !Out(b.size, d) && At(b.grid, d) == Empty ==>
      Shot(b, d) == Ok((b.(grid := Put(b.grid, d, Miss)), false))
    ensures !Out(b.size, d) && At(b.grid, d) == Halo ==> Shot(b, d) == Ok((b, false))
  {
  }

  /**
   * The ship loop never changes a cell that is not 'O', nor the board's size and
   * shape.
   */
  lemma {:induction false} StrikeKeepsUsed(b: BoardState, d: Dot, k: nat)
    requires Shaped(b.grid, b.size)
    ensures Strike(b, d, k).size == b.size && Shaped(Strike(b, d, k).grid, b.size)
    ensures forall i, j :: 0 <= i < b.size && 0 <= j < b.size && b.grid[i][j] != Empty ==>
      Strike(b, d, k).grid[i][j] == b.grid[i][j]
    decreases |b.fleet| - k
  {
    if k < |b.fleet| {
      if d in b.fleet[k].Dots() {
        var s := b.fleet[k].(lives := b.fleet[k].lives - 1);
        if s.lives != 0 {
          StrikeKeepsUsed(b.(fleet := b.fleet[k := s]), d, k + 1);
        }
      } else {
        StrikeKeepsUsed(b, d, k + 1);
      }
    }
  }

  /**
   * A second shot at a dot that the first shot hit or missed always raises
   * `UsedPointException`, whatever the first shot sank.
   */
  lemma ShotAgain(b: BoardState, d: Dot)
    requires Shaped(b.grid, b.size) && Shot(b, d).Ok?
    requires At(b.grid, d) == Deck || At(b.grid, d) == Empty
    ensures Shaped(Shot(b, d).value.0.grid, b.size) && Shot(b, d).value.0.size == b.size
    ensures Shot(Shot(b, d).value.0, d) == Err(UsedPoint)
  {
    if At(b.grid, d) == Deck {
      StrikeKeepsUsed(b.(grid := Put(b.grid, d, Hit)), d, 0);
    }
  }

  /** A sunk ship stays as it is: on a consistent board no later shot changes it. */
  lemma SunkStaysSunk(b: BoardState, d: Dot, k: nat)
    requires WellFormed(b) && Accounted(b) && Shot(b, d).Ok?
    requires k < |b.fleet| && b.fleet[k].lives == 0
    ensures k < |Shot(b, d).value.0.fleet| && Shot(b, d).value.0.fleet[k] == b.fleet[k]
  {
    if At(b.grid, d) == Deck {
      var o := ShotOnDeck(b, d);
      OwnerAfloat(b, d, o);
    }
  }

  /**
   * `live_ships` is never raised: on a consistent board it is never positive, and a
   * shot lowers it by one exactly when it sinks a ship that was afloat, and leaves it
   * unchanged otherwise.
   */
  lemma LiveShipsNeverRaised(b: BoardState, d: Dot)
    requires WellFormed(b) && Accounted(b) && Shot(b, d).Ok?
    ensures b.liveShips <= 0
    ensures var b' := Shot(b, d).value.0;
      b'.liveShips == b.liveShips - 1 <==>
        exists k :: 0 <= k < |b.fleet| && k < |b'.fleet| && !Sunk(b.fleet[k]) && Sunk(b'.fleet[k])
    ensures var b' := Shot(b, d).value.0;
      b'.liveShips == b.liveShips || b'.liveShips == b.liveShips - 1
  {
    var b' := Shot(b, d).value.0;
    if At(b.grid, d) == Deck {
      var o := ShotOnDeck(b, d);
      OwnerAfloat(b, d, o);
      var s := b.fleet[o].(lives := b.fleet[o].lives - 1);
      assert b'.fleet == b.fleet[o := s];
      if s.lives == 0 {
        assert b'.liveShips == b.liveShips - 1;
        assert !Sunk(b.fleet[o]) && Sunk(b'.fleet[o]);
      } else {
        assert b'.liveShips == b.liveShips;
        forall k | 0 <= k < |b.fleet| && k < |b'.fleet| ensures !(!Sunk(b.fleet[k]) && Sunk(b'.fleet[k])) {
          if k != o { assert b'.fleet[k] == b.fleet[k]; }
        }
      }
    } else {
      assert b'.fleet == b.fleet && b'.liveShips == b.liveShips;
    }
  }
}

=== FILE: ships.dfy ===
/** Ships: the `Ship` class of battle.py and the cells it occupies. */
module Ships {
  import opened Dots

  /**
   * The cells of a ship, as `Ship.dots` lists them: the list for `length - 1` cells
   * with the dot for index `length - 1` appended. A non-positive `length` gives no
   * cells, as `range` does.
   */
  function ShipDots(bow: Dot, length: int, direction: int): (r: seq<Dot>)
    ensures |r| == if length < 0 then 0 else length
  {
    if length <= 0 then []
    else
      ShipDots(bow, length - 1, direction) +
      [Dot(bow.x + (length - 1) * direction, bow.y + (length - 1) * (1 - direction))]
  }

  /** The value of a ship: its placement, which never changes, and its remaining `lives`. */
  datatype ShipState = ShipState(bow: Dot, length: int, direction: int, lives: int) {
    function Dots(): seq<Dot> {
      ShipDots(bow, length, direction)
    }
  }

  /** The closed form: cell `i` is `(bow.x + i * direction, bow.y + i * (1 - direction))`. */
  lemma {:induction false} ShipDotsAt(bow: Dot, length: int, direction: int, i: int)
    requires 0 <= i < length
    ensures ShipDots(bow, length, direction)[i] == Dot(bow.x + i * direction, bow.y + i * (1 - direction))
  {
    if i < length - 1 {
      ShipDotsAt(bow, length - 1, direction, i);
    }
  }

  /**
   * No cell is listed twice, whatever the direction: two indices `i < j` would need
   * `(j - i) * direction == 0` and `(j - i) * (1 - direction) == 0`, whose sum is `j - i`.
   */
  lemma DotsDistinct(bow: Dot, length: int, direction: int)
    ensures forall i, j :: 0 <= i < j < |ShipDots(bow, length, direction)| ==>
      ShipDots(bow, length, direction)[i] != ShipDots(bow, length, direction)[j]
  {
    var r := ShipDots(bow, length, direction);
    forall i, j | 0 <= i < j < |r| ensures r[i] != r[j] {
      ShipDotsAt(bow, length, direction, i);
      ShipDotsAt(bow, length, direction, j);
      var n := j - i;
      assert r[j].x - r[i].x == n * direction;
      assert r[j].y - r[i].y == n * (1 - direction);
      assert n * direction + n * (1 - direction) == n;
    }
  }

  /**
   * The cells form a line from the bow: each one is the previous one moved by
   * `(direction, 1 - direction)`, so direction 1 keeps `y` fixed and steps along `x`,
   * and direction 0 keeps `x` fixed and steps along `y`.
   */
  lemma DotsOnLine(bow: Dot, length: int, direction: int)
    ensures |ShipDots(bow, length, direction)| == if length < 0 then 0 else length
    ensures 0 < length ==> ShipDots(bow, length, direction)[0] == bow
    ensures forall i :: 0 < i < |ShipDots(bow, length, direction)| ==>
      ShipDots(bow, length, direction)[i] ==
        Shift(ShipDots(bow, length, direction)[i - 1], (direction, 1 - direction))
    ensures direction == 1 ==> forall p :: p in ShipDots(bow, length, direction) ==> p.y == bow.y
    ensures direction == 0 ==> forall p :: p in ShipDots(bow, length, direction) ==> p.x == bow.x
  {
    var r := ShipDots(bow, length, direction);
    if 0 < length {
      ShipDotsAt(bow, length, direction, 0);
    }
    forall i | 0 < i < |r| ensures r[i] == Shift(r[i - 1], (direction, 1 - direction)) {
      ShipDotsAt(bow, length, direction, i);
      ShipDotsAt(bow, length, direction, i - 1);
      assert i * direction == (i - 1) * direction + direction;
      assert i * (1 - direction) == (i - 1) * (1 - direction) + (1 - direction);
    }
  }

  /** A ship: `bow`, `length` and `direction` are fixed; `shot` decrements `lives`. */
  class Ship {
    const bow: Dot
    const length: int
    const direction: int
    var lives: int

    /** `Ship.__init__`: a new ship has as many lives as its length. */
    constructor (bow: Dot, length: int, direction: int)
      ensures this.bow == bow && this.length == length && this.direction == direction
      ensures lives == length
    {
      this.bow := bow;
      this.length := length;
      this.direction := direction;
      lives := length;
    }

    ghost function Value(): ShipState
      reads this
    {
      ShipState(bow, length, direction, lives)
    }

    /** The `dots` property: builds the list of cells one by one. */
    method Dots() returns (dots: seq<Dot>)
      ensures dots == ShipDots(bow, length, direction)
      ensures |dots| == if length < 0 then 0 else length
      ensures forall i :: 0 <= i < |dots| ==>
        dots[i] == Dot(bow.x + i * direction, bow.y + i * (1 - direction))
    {
      dots := [];
      var i := 0;
      while i < length
        invariant 0 <= i <= if length < 0 then 0 else length
        invariant dots == ShipDots(bow, i, direction)
      {
        var curX := bow.x + i * direction;
        var curY := bow.y + i * (1 - direction);
        dots := dots + [Dot(curX, curY)];
        i := i + 1;
      }
      forall i | 0 <= i < |dots|
        ensures dots[i] == Dot(bow.x + i * direction, bow.y + i * (1 - direction))
      {
        ShipDotsAt(bow, length, direction, i);
      }
    }
  }
}
